=== FILE: README.md ===
# HoroCoin dApp: decoding, clock and reward rules in Dafny

This project models the pure logic in the HoroCoin front end
(`horocoin-dapp/src/App.jsx`). That logic covers four things:

- decoding the ledger's BCS answers: the weekly `vector<DailyClaimInfo>` and the `has_claimed_today` flag;
- turning a ledger clock timestamp into a day of week, a week number and a year;
- picking the zodiac season of a date;
- the daily reward, the streak, and the amount a claim submits.

The project proves properties of that model. The React component
around it is not modelled: the hooks, wallet calls, storage and rendering.

Modules, one file each:

- `Wrappers`: `Option` and `Result`.
- `Bytes`: bytes and the powers of 2 and 256.
- `Uleb128`: `decodeULEB128`. Values are unbounded naturals, so the decoder returns the value the encoding spells.
- `Uleb128Js`: the same decoder with JavaScript's 32-bit `|=` and `<<`, as written. See Findings.
- `U64`: `parseU64LittleEndian`.
- `Claim`: one `DailyClaimInfo` record and `parseSingleClaim`, which is split into one function per group of fields.
- `Progress`: `parseFlatClaimData` and `parseWeeklyProgressResult`. Records are folded into a map keyed by day of week.
- `Clock`: `getSuiTime` and `getCurrentDayOfWeek`. They are checked against an independent reference calendar.
- `Zodiac`: `getCurrentZodiacSeason` and the `ZODIAC_SIGNS` date table.
- `Rewards`: `calculateDailyReward`, `getDailyStreak`, `checkBlockchainClaimStatus`, `isTodayCompleted`, `updateTodaysClaimAmount`, and the amount passed to the claim call.

On failure `parseSingleClaim` returns the offset it had reached
(App.jsx:2287), not the offset it started from, and the model does the
same. The collection loop never uses that offset: it stops at the first
failure.

## Model

| member | source | states |
|---|---|---|
| Uleb128.Decode | horocoin-dapp/src/App.jsx:2034-2055 | The decoder fails exactly when ten bytes in a row carry the continuation bit. Otherwise it stops after the first byte without that bit, or at the end of the buffer. The value is the number the seven-bit groups read so far spell. An offset at or past the end gives 0 without moving. |
| Uleb128.DecodeEncode | horocoin-dapp/src/App.jsx:2034-2055 | Round trip: the canonical encoding of any v below 2^64, placed anywhere in a buffer, decodes to v. The cursor lands right after the encoding. |
| Uleb128.EncodeLength | horocoin-dapp/src/App.jsx:2049-2052 | The canonical encoding of v fits in k bytes if and only if v < 2^(7k). So every u64 fits in the ten bytes the shift guard allows. |
| Uleb128.TruncatedVarint | horocoin-dapp/src/App.jsx:2039-2054 | A buffer that ends inside a varint shorter than ten bytes is not an error. The decoder returns the groups it saw and stops at the end of the buffer. |
| Uleb128.EncodeGroups | horocoin-dapp/src/App.jsx:2042 | The seven-bit groups of the canonical encoding spell the encoded value. |
| Uleb128.EncodeMarks | horocoin-dapp/src/App.jsx:2045-2047 | In a canonical encoding, every byte but the last has the continuation bit and the last does not. |
| Uleb128Js.DecodeJs | horocoin-dapp/src/App.jsx:2034-2055 | The decoder as written, with a 32-bit accumulator. It fails and moves the cursor exactly as the unbounded decoder does. Whenever the unbounded value is below 2^31, it returns that same value. |
| Uleb128Js.RoundTripBelowSignBit | horocoin-dapp/src/App.jsx:2034-2055 | Every value below 2^31, encoded canonically, decodes back to itself as written, consuming the whole encoding. |
| Uleb128Js.SignBitLost | horocoin-dapp/src/App.jsx:2042 | The canonical five-byte varint of 2^31 decodes to -2^31 as written. The unbounded decoder gives 2^31. |
| U64.Read | horocoin-dapp/src/App.jsx:2058-2076 | A read succeeds if and only if eight bytes remain at the offset. The failure reports the offset and the bytes available. A value is always below 2^64, and values above 2^53 - 1 are still returned. |
| U64.WriteAfterRead | horocoin-dapp/src/App.jsx:2064-2068 | Writing the value read back as eight little-endian bytes gives exactly the bytes read. |
| U64.ReadWritten | horocoin-dapp/src/App.jsx:2064-2068 | Any u64 written little-endian anywhere in a buffer reads back as itself. |
| U64.LargeValuesAreRead | horocoin-dapp/src/App.jsx:2071-2076 | 2^64 - 1 is read without failure, although it exceeds MAX_SAFE_INTEGER: the check only warns. |
| Claim.ParseSingleClaim | horocoin-dapp/src/App.jsx:2208-2289 | Throws only for a start at or past the end. A rejection stops inside the buffer, after the start. A parsed record has its day byte at the start and a day 0..6. Its daily reward is its amount in whole tokens. It spans 33 fixed bytes, 1 to 10 length bytes and the label, all within the buffer. |
| Claim.ParseCounters | horocoin-dapp/src/App.jsx:2262-2280 | The last two u64 fields complete the record with the fields decoded before them: the claim day is the u64 at the cursor and the streak the u64 after it. The daily reward is the amount divided by 10^6, rounded down, and the cursor moves 16 bytes. |
| Claim.ParseSerialized | horocoin-dapp/src/App.jsx:2208-2280 | Round trip: a serializable record written anywhere in a buffer parses back field for field. The cursor lands right after it. |
| Claim.BadDayRejected | horocoin-dapp/src/App.jsx:2219-2225 | A day byte above 6 rejects the record, with the cursor just past that byte. |
| Claim.OverlongLabelLengthRejected | horocoin-dapp/src/App.jsx:2238-2288 | A label length whose varint runs ten continuation bytes rejects the record, because the catch turns the decoder's throw into a rejection. |
| Claim.TruncatedRecordRejected | horocoin-dapp/src/App.jsx:2228-2268 | A buffer that ends strictly inside a serialized record makes the decoder reject it. It neither throws nor invents a record. |
| Claim.ParsePrefixRejected | horocoin-dapp/src/App.jsx:2228-2268 | A record that parses from a buffer is rejected from every prefix of the buffer that ends inside it. |
| Claim.ReadPrefix | horocoin-dapp/src/App.jsx:2058-2068 | A u64 read from a prefix agrees with the full buffer when the prefix holds all eight bytes, and fails otherwise. |
| Claim.DecodePrefix | horocoin-dapp/src/App.jsx:2039-2054 | A varint that decodes from a buffer decodes identically from a prefix that holds it. A prefix that cuts it gives a truncated read stopping at the prefix's end. |
| Claim.SubmittedRewardRecovered | horocoin-dapp/src/App.jsx:2274 | A claim recorded as reward * 10^6 minor units decodes with `reward` as its daily reward. |
| Progress.ParseClaims | horocoin-dapp/src/App.jsx:2178-2197 | The record loop only adds days. It keeps every entry under its own day of week, with a well-formed record. |
| Progress.ParseFlatClaimData | horocoin-dapp/src/App.jsx:2160-2204 | The map is keyed by day of week, with each record filed under its own day. It holds at most seven entries. An empty buffer gives the empty map, and so does a count varint the decoder throws on. |
| Progress.ParseWeeklyProgressResult | horocoin-dapp/src/App.jsx:2132-2157 | A missing return value gives the empty map. Present bytes give what the collection decoder gives for them. |
| Progress.FlatClaimDataSerialized | horocoin-dapp/src/App.jsx:2160-2205 | Round trip: a count of at least N, then N serialized records, then either the count being exactly N or a record that fails. This decodes to the N records folded into a map, a later record of a day replacing an earlier one. |
| Progress.RecordsThenBadDay | horocoin-dapp/src/App.jsx:2178-2196 | N serialized records followed by a bad day byte decode to the N records, whatever larger count the prefix claims. |
| Progress.ParseClaimsDecoded | horocoin-dapp/src/App.jsx:2178-2197 | Records that decode one after another are inserted in order. The loop then continues after them with the count reduced. |
| Progress.ParseClaimsStops | horocoin-dapp/src/App.jsx:2178-2196 | The loop keeps its map when the count is used up or the record at the cursor does not parse. |
| Progress.FoldKeys | horocoin-dapp/src/App.jsx:2181-2184 | The days filled are exactly the days of the records inserted. |
| Progress.FoldKeepsLast | horocoin-dapp/src/App.jsx:2181-2184 | The last record of a day is the one kept for that day. |
| Progress.FoldUntouched | horocoin-dapp/src/App.jsx:2181-2184 | A day none of the records has keeps its earlier entry, or stays absent. |
| Clock.JsRem | horocoin-dapp/src/App.jsx:1623 | The JavaScript remainder: equal to the mathematical modulus for a non-negative left operand, and in (-b, 0] for a negative one. Either way it differs from the left operand by a multiple of b. |
| Clock.DeriveFields | horocoin-dapp/src/App.jsx:1617-1632 | For timestamps from the epoch on, the fields agree with the reference calendar. The days are whole days in milliseconds, with Sunday = 0 counted from a Thursday epoch. Weeks start on Sunday. Years are 365-day blocks from 2024-01-01. |
| Clock.GetSuiTime | horocoin-dapp/src/App.jsx:1600-1697 | Always loaded. No error exactly when the clock object has a timestamp a Date can hold (at most 8.64e15 ms either side of the epoch), which is then the reading's timestamp. Otherwise the local clock is used, with the error kind matching the failure. A timestamp too large to hold makes `toISOString` throw, which lands in the fallback. For a timestamp from the epoch on, the day of week matches the reference calendar. |
| Clock.LocalDayOfWeek | horocoin-dapp/src/App.jsx:1940-1946 | getCurrentDayOfWeek's own fallback gives the reference day of week of the local clock, for every instant from the epoch on. |
| Clock.CurrentDayOfWeek | horocoin-dapp/src/App.jsx:1934-1947 | A loaded reading's day of week, else, for a local clock from the epoch on, the reference day of week of the local clock. |
| Clock.StoredDayOfWeek | horocoin-dapp/src/App.jsx:1934-1936 | After getSuiTime has stored a reading, the current day of week depends only on the stored reading. For timestamps from the epoch on, that is the ledger timestamp's reference day if there was one, else the local clock's at query time. |
| Clock.LocalDayAgrees | horocoin-dapp/src/App.jsx:1940-1946 | getCurrentDayOfWeek's own fallback and getSuiTime's arithmetic give the same day of week for every timestamp. |
| Clock.FallbackAgreesWithLedger | horocoin-dapp/src/App.jsx:1663-1692 | The fallback branch, fed the ledger's instant, gives exactly the primary branch's timestamp and fields, for any instant a Date can hold. Both branches call the same `DeriveFields`, so this holds by construction; it restates the shared arithmetic for the reader. |
| Clock.PreEpochDayOfWeek | horocoin-dapp/src/App.jsx:1618-1623 | Five days before the epoch the remainder gives day of week -1, where the reference calendar gives Saturday (6). |
| Clock.DayOfWeekRange | horocoin-dapp/src/App.jsx:1618-1623 | From the epoch on, the day of week is in 0..6, and 1970-01-01 is a Thursday. |
| Clock.YearAnchor | horocoin-dapp/src/App.jsx:1622-1632 | Day 19723 is a Monday in year 2024. |
| Clock.NextDay | horocoin-dapp/src/App.jsx:1618-1628 | A day later, the day count grows by one and the day of week moves on by one modulo 7. The week number grows exactly when the new day is a Sunday. |
| Clock.SundayWeek | horocoin-dapp/src/App.jsx:1626-1628 | floor((d - dow) / 7) is the reference week of the day, from the epoch's Sunday on. |
| Clock.SameWeek | horocoin-dapp/src/App.jsx:1626-1628 | Two days share a week number if and only if they share the Sunday that starts their week. |
| Clock.YearMonotone | horocoin-dapp/src/App.jsx:1631-1632 | The year never decreases as time passes. |
| Clock.YearBlocks | horocoin-dapp/src/App.jsx:1631-1632 | Day r of the k-th 365-day block after the anchor is in year 2024 + k. |
| Zodiac.ZodiacSeason | horocoin-dapp/src/App.jsx:1703-1720 | For a month 1..12, the season returned is a sign whose printed date range holds the date. |
| Zodiac.SeasonMatchesTable | horocoin-dapp/src/App.jsx:1703-1735 | For every month 1..12, the season is a given sign if and only if the date lies in that sign's range in the table. |
| Zodiac.StartDayIsInSeason | horocoin-dapp/src/App.jsx:1722-1735 | The first and last printed day of each sign's range fall in that sign's season. |
| Zodiac.NamesDistinct | horocoin-dapp/src/App.jsx:1708-1719 | The twelve season keys are pairwise distinct, so a key names exactly one sign. |
| Zodiac.RangesSpanTwoMonths | horocoin-dapp/src/App.jsx:1722-1735 | Each printed range ends in the month after it starts. It ends the day before the next sign's range starts. |
| Rewards.CalculateDailyReward | horocoin-dapp/src/App.jsx:2291-2295 | The reward is never below 10 tokens. |
| Rewards.RewardTier | horocoin-dapp/src/App.jsx:2291-2295 | The reward is 10 + 5k exactly for the day counts 3k, 3k+1 and 3k+2. |
| Rewards.RewardMonotone | horocoin-dapp/src/App.jsx:2291-2295 | A longer streak never earns less. |
| Rewards.RewardFirstTiers | horocoin-dapp/src/App.jsx:2291-2295 | The first tiers: 10 tokens for day counts 0-2, 15 for 3-5, 20 for 6-8. |
| Rewards.DailyStreak | horocoin-dapp/src/App.jsx:2298-2300 | At most 7 for a day-keyed week. It is 0 exactly for an empty week. |
| Rewards.StreakCountsDistinctDays | horocoin-dapp/src/App.jsx:2298-2300 | After decoding, the streak is the number of distinct days among the records. |
| Rewards.ClaimStatusOf | horocoin-dapp/src/App.jsx:1972-2027 | The status is "checking" exactly when there is no account. It is "claimed" only for a return value with both its bytes and type entries. |
| Rewards.ClaimFlagRoundTrip | horocoin-dapp/src/App.jsx:2007-2020 | A BCS bool served with its type name reads as claimed exactly when it is true. |
| Rewards.ClaimFlagStrict | horocoin-dapp/src/App.jsx:2011-2016 | Any first byte other than 1, or a return value missing its type entry, reads as not claimed. |
| Rewards.IsTodayCompleted | horocoin-dapp/src/App.jsx:2303-2307 | The ledger's "claimed" always completes the day. Without it, the day is completed exactly when today's entry counts towards the streak: dropping today lowers it. |
| Rewards.TodayCompletedByRecord | horocoin-dapp/src/App.jsx:2303-2307 | Without the ledger flag, today is done exactly when a decoded record of the week has today's day. |
| Rewards.TodaysClaimAmount | horocoin-dapp/src/App.jsx:2310-2330 | 0 when today is not completed. Today's recorded reward when it is non-zero. A positive amount only for a completed day with some progress loaded. |
| Rewards.TodayEstimate | horocoin-dapp/src/App.jsx:2314-2326 | A completed day without a usable recorded reward shows the reward for one more streak day. It shows 0 while the week's progress is empty. |
| Rewards.SubmittedReward | horocoin-dapp/src/App.jsx:2431-2432 | The submitted reward is at least 10 tokens. It is at most 20 for a real week, and exactly 10 for the first two claims of a week. |
| Rewards.SubmittedAmount | horocoin-dapp/src/App.jsx:2431-2433 | The claim amount is the streak reward in whole tokens. For any real week it fits a u64. |
| Rewards.SubmittedClaimDecodes | horocoin-dapp/src/App.jsx:2274 | The record the ledger stores for a submitted claim decodes with the submitted reward as its daily reward. |
| Rewards.RecordedClaimShown | horocoin-dapp/src/App.jsx:2312-2316 | Once today's claim is in the week's progress, the amount shown for today is the submitted reward, whatever the flag says. |

## Left out

- React state, effects, polling and rendering. Each entry point is modelled as a function from its inputs to the value it would store.
- Wallet and RPC calls (`getObject`, `devInspectTransactionBlock`, the claim transaction). Their answers are inputs: `Clock.ClockQuery`, `Rewards.FlagQuery`, and `Option<seq<byte>>` for the weekly progress.
- The current time (`Date.now()`, `new Date()`). It is a parameter: `localNowMs` for the clock, today's day of week for the reward rules.
- Parsing the `timestamp_ms` string with `parseInt`. The clock object's timestamp is given as an integer, or as missing.
- `TextDecoder` for the zodiac label, and its "unknown" fallback. The label is kept as raw bytes.
- The `date` field of a decoded record and the date helper `getDateForDayOfWeek`. `toISOString` is modelled only as the range check in `Clock.GetSuiTime`. `getDateForDayOfWeek` runs inside `parseSingleClaim`'s `try` (App.jsx:2279) and throws within six days of the ±8.64e15 ms edge of a Date, which rejects the record; that throw is not modelled.
- The `dayOfWeek !== null` test in `getCurrentDayOfWeek`. A loaded reading always carries an integer day of week in the model.
- Floating point. Numbers are exact integers, so the rounding of u64 values above 2^53 - 1 in `parseU64LittleEndian`'s sum is not modelled.
- The local date's month and day in `getCurrentZodiacSeason`. They are parameters.
- Console logging and error-message text.
- Uleb128.Decode: the value is the ideal one. The 32-bit operators of the source, which differ from 2^31 up, are modelled separately in Uleb128Js (see Findings). The ideal value also feeds the label length in `Claim.ParseSingleClaim` and the record count in `Progress.ParseFlatClaimData`, so a length or count of 2^31 or more reads differently from the source. For example, the count varint 80 80 80 80 10 reads as 0 as written and as 2^32 in the model.
- Uleb128.DecodeEncode: states the intended round trip for all of u64. As written, it holds only below 2^31 (Uleb128Js.RoundTripBelowSignBit).
- U64.ReadWritten: exact read-back holds as written only up to 2^53 - 1. The source sums in doubles, so larger values come back rounded; 2^64 - 1 comes back as 2^64. The model reads over exact integers.
- U64.WriteAfterRead: the same rounding applies. As written, writing back a value above 2^53 - 1 need not give the bytes read.
- U64.LargeValuesAreRead: states that the read succeeds and, over exact integers, gives 2^64 - 1. As written, the value is rounded to 2^64.
- Clock.GetSuiTime, Clock.CurrentDayOfWeek, Clock.StoredDayOfWeek: the day of week is tied to the reference calendar only from the epoch on. Before it, the JavaScript remainder `(daysSinceEpoch + 4) % 7` can be negative (Clock.PreEpochDayOfWeek), as in the source.
- Clock.GetSuiTime: a `timestamp_ms` string that `parseInt` cannot read gives NaN, and NaN also makes `toISOString` throw. The model takes the timestamp as an integer, so that path is not modelled.

## Findings

| source | as written | input that shows it | evidently intended | confidence | as-written member | corrected member |
|---|---|---|---|---|---|---|
| horocoin-dapp/src/App.jsx:2042 | `value \|= (byte & 0x7F) << shift` uses JavaScript's 32-bit signed `<<` and `\|=`. The shift count is taken modulo 32. | The canonical varint of 2^31, bytes 0x80 0x80 0x80 0x80 0x08, decodes to -2147483648. | The `shift >= 64` guard shows that u64 values were meant. The bytes should decode to 2^31. | not executed | Uleb128Js.SignBitLost | Uleb128.DecodeEncode |

=== FILE: bytes.dfy ===
/** Bytes as the ledger client hands them over (a JavaScript array of numbers
    in 0..255), and the powers of two and 256 the decoders weigh them with. */
module Bytes {

  type byte = x: int | 0 <= x < 256

  function Pow2(n: nat): (r: nat)
    ensures r >= 1
  {
    if n == 0 then 1 else 2 * Pow2(n - 1)
  }

  lemma {:induction false} Pow2Add(a: nat, b: nat)
    ensures Pow2(a + b) == Pow2(a) * Pow2(b)
  {
    if a == 0 {
    } else {
      Pow2Add(a - 1, b);
      assert Pow2(a + b) == 2 * Pow2(a - 1 + b);
    }
  }

  lemma Pow2Monotone(a: nat, b: nat)
    requires a <= b
    ensures Pow2(a) <= Pow2(b)
  {
    Pow2Add(a, b - a);
    assert Pow2(b) == Pow2(a) * Pow2(b - a);
  }

  /** 2^(7k): the weight of the k-th seven-bit group of a varint. */
  lemma Pow2Seven(k: nat)
    ensures Pow2(7 * (k + 1)) == 128 * Pow2(7 * k)
  {
    Pow2Add(7 * k, 7);
    assert Pow2(7) == 128;
  }

  function Pow256(n: nat): (r: nat)
    ensures r >= 1
  {
    if n == 0 then 1 else 256 * Pow256(n - 1)
  }

  lemma {:induction false} Pow256IsPow2(n: nat)
    ensures Pow256(n) == Pow2(8 * n)
  {
    if n > 0 {
      Pow256IsPow2(n - 1);
      Pow2Add(8 * (n - 1), 8);
      assert Pow2(8) == 256;
    }
  }
}

=== FILE: claim.dfy ===
/** One `DailyClaimInfo` record of the weekly-progress query and
    `parseSingleClaim`, which reads it field by field:

      day_of_week  1 byte, 0..6 (Sunday = 0)
      amount       u64 little-endian, token minor units (6 decimals)
      timestamp    u64 little-endian, milliseconds since the Unix epoch
      zodiac_sign  ULEB128 length, then that many bytes
      claim_day    u64 little-endian, days since the Unix epoch
      streak       u64 little-endian */
module Claim {
  import opened Bytes
  import opened Wrappers
  import Uleb128
  import U64

  /** Minor units per whole token: amounts carry six decimals. */
  const MinorUnitsPerToken: nat := 1_000_000

  /** Days are numbered 0 (Sunday) to 6 (Saturday). */
  const LastDayOfWeek: nat := 6

  /** The fixed-width part of a record: the day byte and four u64 fields. */
  const FixedWidth: nat := 1 + 4 * U64.Width

  /** A decoded claim.  `dailyReward` is the whole-token amount the source
      derives while decoding; `zodiacSign` is kept as the raw label bytes. */
  datatype ClaimRecord = ClaimRecord(
    dayOfWeek: nat,
    amount: nat,
    dailyReward: nat,
    timestamp: nat,
    zodiacSign: seq<byte>,
    claimDay: nat,
    streakAtClaim: nat)

  /** The outcome of one `parseSingleClaim` call: a record and the offset
      after it; `claim: null` with the offset reached when the failure was
      detected; or an exception, thrown only for a start at or past the end. */
  datatype ClaimParse =
    | Parsed(claim: ClaimRecord, nextOffset: nat)
    | Rejected(nextOffset: nat)
    | Thrown

  /** Whole tokens in an amount of minor units, rounded down. */
  function WholeTokens(amount: nat): nat {
    amount / MinorUnitsPerToken
  }

  /** A record the decoder can produce: a day 0..6, u64 fields, and the
      daily reward derived from the amount. */
  ghost predicate WellFormed(c: ClaimRecord) {
    && c.dayOfWeek <= LastDayOfWeek
    && c.amount < U64.Limit
    && c.timestamp < U64.Limit
    && c.claimDay < U64.Limit
    && c.streakAtClaim < U64.Limit
    && c.dailyReward == WholeTokens(c.amount)
  }

  /** A record the ledger can serialize: well formed, with a label whose
      length fits a u64. */
  ghost predicate Serializable(c: ClaimRecord) {
    WellFormed(c) && |c.zodiacSign| < U64.Limit
  }

  /** The first 17 bytes of a serialized record: day, amount, timestamp. */
  function Head(c: ClaimRecord): (bs: seq<byte>)
    requires c.dayOfWeek <= LastDayOfWeek
    ensures |bs| == 1 + 2 * U64.Width
  {
    [c.dayOfWeek as byte] + U64.Write(c.amount) + U64.Write(c.timestamp)
  }

  /** The last 16 bytes of a serialized record: claim day and streak. */
  function Tail(c: ClaimRecord): (bs: seq<byte>)
    ensures |bs| == 2 * U64.Width
  {
    U64.Write(c.claimDay) + U64.Write(c.streakAtClaim)
  }

  /** The bytes of a record as the ledger serializes it, fields in
      declaration order. */
  function Serialize(c: ClaimRecord): (bs: seq<byte>)
    requires c.dayOfWeek <= LastDayOfWeek
    ensures |bs| == FixedWidth + |Uleb128.Encode(|c.zodiacSign|)| + |c.zodiacSign|
  {
    Head(c) + Uleb128.Encode(|c.zodiacSign|) + c.zodiacSign + Tail(c)
  }

  // ---------------------------------------------------------------------------
  // The decoder, one stage per group of fields

  /** `parseSingleClaim(data, startOffset)`: throws only for a start at or
      past the end; otherwise a record whose fields lie within the buffer,
      or a rejection with an offset inside the buffer. */
  function ParseSingleClaim(data: seq<byte>, start: nat): (r: ClaimParse)
    ensures r.Thrown? <==> start >= |data|
    ensures r.Rejected? ==> start < r.nextOffset <= |data|
    ensures r.Parsed? ==>
      && WellFormed(r.claim)
      && r.claim.dayOfWeek == data[start]
      && start + FixedWidth + 1 + |r.claim.zodiacSign| <= r.nextOffset
      && r.nextOffset <= start + FixedWidth + Uleb128.MaxEncodedLength + |r.claim.zodiacSign|
      && r.nextOffset <= |data|
  {
    if start >= |data| then Thrown
    else
      var day := data[start];
      if day > LastDayOfWeek then Rejected(start + 1)
      else ParseAmounts(data, start + 1, day)
  }

  /** amount_claimed and timestamp, from offset `o1`. */
  function ParseAmounts(data: seq<byte>, o1: nat, day: nat): (r: ClaimParse)
    requires o1 <= |data| && day <= LastDayOfWeek
    ensures r.Rejected? ==> o1 <= r.nextOffset <= |data|
    ensures r.Parsed? ==>
      && WellFormed(r.claim)
      && r.claim.dayOfWeek == day
      && o1 + FixedWidth + |r.claim.zodiacSign| <= r.nextOffset
      && r.nextOffset <= o1 + FixedWidth - 1 + Uleb128.MaxEncodedLength + |r.claim.zodiacSign|
      && r.nextOffset <= |data|
    ensures !r.Thrown?
  {
    match U64.Read(data, o1)
    case Failure(_) => Rejected(o1)
    case Success(amount) =>
      var o2 := o1 + U64.Width;
      match U64.Read(data, o2)
      case Failure(_) => Rejected(o2)
      case Success(timestamp) => ParseSign(data, o2 + U64.Width, day, amount, timestamp)
  }

  /** The zodiac_sign vector: ULEB128 length, then the bytes, from `o3`. */
  function ParseSign(data: seq<byte>, o3: nat, day: nat, amount: nat, timestamp: nat): (r: ClaimParse)
    requires o3 <= |data| && day <= LastDayOfWeek && amount < U64.Limit && timestamp < U64.Limit
    ensures r.Rejected? ==> o3 <= r.nextOffset <= |data|
    ensures r.Parsed? ==>
      && WellFormed(r.claim)
      && r.claim.dayOfWeek == day
      && o3 + 2 * U64.Width + 1 + |r.claim.zodiacSign| <= r.nextOffset
      && r.nextOffset <= o3 + 2 * U64.Width + Uleb128.MaxEncodedLength + |r.claim.zodiacSign|
      && r.nextOffset <= |data|
    ensures !r.Thrown?
  {
    match Uleb128.Decode(data, o3)
    case Failure(_) => Rejected(o3)
    case Success(Decoded(signLength, o4)) =>
      if o4 + signLength > |data| then Rejected(o4)
      else ParseCounters(data, o4 + signLength, day, amount, timestamp, data[o4..o4 + signLength])
  }

  /** claim_day and streak_at_claim, from `o5`. */
  function ParseCounters(data: seq<byte>, o5: nat, day: nat, amount: nat, timestamp: nat, sign: seq<byte>): (r: ClaimParse)
    requires o5 <= |data| && day <= LastDayOfWeek && amount < U64.Limit && timestamp < U64.Limit
    ensures r.Rejected? ==> o5 <= r.nextOffset <= |data|
    ensures r.Parsed? ==>
      && r.claim == ClaimRecord(day, amount, WholeTokens(amount), timestamp, sign, r.claim.claimDay, r.claim.streakAtClaim)
      && U64.Read(data, o5) == Success(r.claim.claimDay)
      && U64.Read(data, o5 + U64.Width) == Success(r.claim.streakAtClaim)
      && WellFormed(r.claim)
      && r.nextOffset == o5 + 2 * U64.Width <= |data|
    ensures !r.Thrown?
  {
    match U64.Read(data, o5)
    case Failure(_) => Rejected(o5)
    case Success(claimDay) =>
      var o6 := o5 + U64.Width;
      match U64.Read(data, o6)
      case Failure(_) => Rejected(o6)
      case Success(streak) =>
        Parsed(ClaimRecord(day, amount, WholeTokens(amount), timestamp, sign, claimDay, streak), o6 + U64.Width)
  }

  // ---------------------------------------------------------------------------
  // Properties

  /** Record round trip: a serializable record written anywhere in a buffer
      parses back field for field, and the cursor lands right after it, at
      start + 33 + (varint length) + (label length). */
  lemma ParseSerialized(data: seq<byte>, start: nat, c: ClaimRecord)
    requires Serializable(c)
    requires start + |Serialize(c)| <= |data|
    requires data[start..start + |Serialize(c)|] == Serialize(c)
    ensures ParseSingleClaim(data, start) == Parsed(c, start + |Serialize(c)|)
  {
    hide ParseAmounts, ParseSign, ParseCounters, Serialize, U64.Write, Uleb128.Encode;
    var s := Serialize(c);
    var e := Uleb128.Encode(|c.zodiacSign|);
    var o3 := start + 1 + 2 * U64.Width;
    var o4 := o3 + |e|;
    var o5 := o4 + |c.zodiacSign|;
    SerializeFields(c);
    assert data[start] == s[0];
    SliceOfSlice(data, start, start + |s|, 1, 9);
    SliceOfSlice(data, start, start + |s|, 9, 17);
    SliceOfSlice(data, start, start + |s|, 17, 17 + |e|);
    SliceOfSlice(data, start, start + |s|, 17 + |e|, 17 + |e| + |c.zodiacSign|);
    SliceOfSlice(data, start, start + |s|, 17 + |e| + |c.zodiacSign|, |s| - 8);
    SliceOfSlice(data, start, start + |s|, |s| - 8, |s|);
    CountersSerialized(data, o5, c);
    SignSerialized(data, o3, c);
    AmountsSerialized(data, start + 1, c);
  }

  /** Where each field sits in a serialized record. */
  lemma SerializeFields(c: ClaimRecord)
    requires c.dayOfWeek <= LastDayOfWeek
    ensures var s := Serialize(c);
      var e := Uleb128.Encode(|c.zodiacSign|);
      var o5 := 17 + |e| + |c.zodiacSign|;
      && s[0] == c.dayOfWeek
      && s[1..9] == U64.Write(c.amount)
      && s[9..17] == U64.Write(c.timestamp)
      && s[17..17 + |e|] == e
      && s[17 + |e|..o5] == c.zodiacSign
      && s[o5..o5 + 8] == U64.Write(c.claimDay)
      && s[o5 + 8..o5 + 16] == U64.Write(c.streakAtClaim)
      && |s| == o5 + 16
  {
    var s := Serialize(c);
    var e := Uleb128.Encode(|c.zodiacSign|);
    var h := Head(c);
    var t := Tail(c);
    var o5 := 17 + |e| + |c.zodiacSign|;
    assert s == h + e + c.zodiacSign + t;
    assert h[1..9] == U64.Write(c.amount);
    assert h[9..17] == U64.Write(c.timestamp);
    assert s[1..9] == h[1..9];
    assert s[9..17] == h[9..17];
    assert t[0..8] == U64.Write(c.claimDay);
    assert t[8..16] == U64.Write(c.streakAtClaim);
    assert s[o5..o5 + 8] == t[0..8];
    assert s[o5 + 8..o5 + 16] == t[8..16];
  }

  /** The amount and timestamp read back, then the label and counters. */
  lemma AmountsSerialized(data: seq<byte>, o1: nat, c: ClaimRecord)
    requires Serializable(c)
    requires o1 + 2 * U64.Width <= |data|
    requires data[o1..o1 + 8] == U64.Write(c.amount)
    requires data[o1 + 8..o1 + 16] == U64.Write(c.timestamp)
    requires ParseSign(data, o1 + 16, c.dayOfWeek, c.amount, c.timestamp).Parsed?
    ensures ParseAmounts(data, o1, c.dayOfWeek) == ParseSign(data, o1 + 16, c.dayOfWeek, c.amount, c.timestamp)
  {
    U64.ReadWritten(data, o1, c.amount);
    U64.ReadWritten(data, o1 + 8, c.timestamp);
  }

  /** The label length and bytes read back, then the counters. */
  lemma SignSerialized(data: seq<byte>, o3: nat, c: ClaimRecord)
    requires Serializable(c)
    requires var o4 := o3 + |Uleb128.Encode(|c.zodiacSign|)|;
      && o4 + |c.zodiacSign| <= |data|
      && data[o3..o4] == Uleb128.Encode(|c.zodiacSign|)
      && data[o4..o4 + |c.zodiacSign|] == c.zodiacSign
    ensures var o5 := o3 + |Uleb128.Encode(|c.zodiacSign|)| + |c.zodiacSign|;
      ParseSign(data, o3, c.dayOfWeek, c.amount, c.timestamp) ==
      ParseCounters(data, o5, c.dayOfWeek, c.amount, c.timestamp, c.zodiacSign)
  {
    hide ParseCounters, Uleb128.Encode;
    var len := |c.zodiacSign|;
    var o4 := o3 + |Uleb128.Encode(len)|;
    U64.LimitIsPow2();
    Uleb128.DecodeEncode(data, o3, len);
    assert Uleb128.Decode(data, o3) == Success(Uleb128.Decoded(len, o4));
  }

  /** The claim day and streak read back, completing the record. */
  lemma CountersSerialized(data: seq<byte>, o5: nat, c: ClaimRecord)
    requires WellFormed(c)
    requires o5 + 2 * U64.Width <= |data|
    requires data[o5..o5 + 8] == U64.Write(c.claimDay)
    requires data[o5 + 8..o5 + 16] == U64.Write(c.streakAtClaim)
    ensures ParseCounters(data, o5, c.dayOfWeek, c.amount, c.timestamp, c.zodiacSign) == Parsed(c, o5 + 16)
  {
    U64.ReadWritten(data, o5, c.claimDay);
    U64.ReadWritten(data, o5 + 8, c.streakAtClaim);
  }

  lemma SliceOfSlice(a: seq<byte>, i: nat, j: nat, p: nat, q: nat)
    requires i <= j <= |a| && p <= q <= j - i
    ensures a[i..j][p..q] == a[i + p..i + q]
  {
    assert forall t :: 0 <= t < q - p ==> a[i..j][p..q][t] == a[i + p..i + q][t];
  }

  /** A day byte above 6 rejects the record right after that byte. */
  lemma BadDayRejected(data: seq<byte>, start: nat)
    requires start < |data| && data[start] > LastDayOfWeek
    ensures ParseSingleClaim(data, start) == Rejected(start + 1)
  {
  }

  /** A label length whose varint runs ten continuation bytes long rejects
      the record without an exception. */
  lemma OverlongLabelLengthRejected(data: seq<byte>, start: nat)
    requires start + 1 + 2 * U64.Width + Uleb128.MaxEncodedLength <= |data|
    requires data[start] <= LastDayOfWeek
    requires Uleb128.AllContinue(data, start + 17, start + 17 + Uleb128.MaxEncodedLength)
    ensures ParseSingleClaim(data, start) == Rejected(start + 17)
  {
  }

  /** Truncation safety: a buffer that ends strictly inside a serialized
      record (after `cut` of its bytes, 0 < cut) makes the decoder reject
      the record; it neither throws nor invents one. */
  lemma TruncatedRecordRejected(prefix: seq<byte>, c: ClaimRecord, cut: nat)
    requires Serializable(c)
    requires 0 < cut < |Serialize(c)|
    ensures ParseSingleClaim(prefix + Serialize(c)[..cut], |prefix|).Rejected?
  {
    hide ParseSingleClaim;
    var full := prefix + Serialize(c);
    var data := prefix + Serialize(c)[..cut];
    assert full[|prefix|..|prefix| + |Serialize(c)|] == Serialize(c);
    ParseSerialized(full, |prefix|, c);
    assert data == full[..|prefix| + cut];
    ParsePrefixRejected(full, |prefix|, |prefix| + cut);
  }

  /** A record that parses from `data` is rejected from every prefix of
      `data` that ends strictly inside it. */
  lemma ParsePrefixRejected(data: seq<byte>, start: nat, k: nat)
    requires ParseSingleClaim(data, start).Parsed?
    requires start < k < ParseSingleClaim(data, start).nextOffset
    ensures ParseSingleClaim(data[..k], start).Rejected?
  {
    AmountsPrefixRejected(data, start + 1, data[start], k);
  }

  lemma AmountsPrefixRejected(data: seq<byte>, o1: nat, day: nat, k: nat)
    requires o1 <= k <= |data| && day <= LastDayOfWeek
    requires ParseAmounts(data, o1, day).Parsed?
    requires k < ParseAmounts(data, o1, day).nextOffset
    ensures ParseAmounts(data[..k], o1, day).Rejected?
  {
    var o2 := o1 + U64.Width;
    ReadPrefix(data, o1, k);
    ReadPrefix(data, o2, k);
    if o2 + U64.Width <= k {
      var amount := U64.Read(data, o1).value;
      var timestamp := U64.Read(data, o2).value;
      SignPrefixRejected(data, o2 + U64.Width, day, amount, timestamp, k);
    }
  }

  lemma SignPrefixRejected(data: seq<byte>, o3: nat, day: nat, amount: nat, timestamp: nat, k: nat)
    requires o3 <= k <= |data| && day <= LastDayOfWeek && amount < U64.Limit && timestamp < U64.Limit
    requires ParseSign(data, o3, day, amount, timestamp).Parsed?
    requires k < ParseSign(data, o3, day, amount, timestamp).nextOffset
    ensures ParseSign(data[..k], o3, day, amount, timestamp).Rejected?
  {
    var d := data[..k];
    var dec := Uleb128.Decode(data, o3);
    var o4 := dec.value.nextOffset;
    var len := dec.value.value;
    DecodePrefix(data, o3, k);
    if o4 <= k {
      var o5 := o4 + len;
      if o5 <= k {
        assert d[o4..o5] == data[o4..o5];
        CountersPrefixRejected(data, o5, day, amount, timestamp, data[o4..o5], k);
      }
    } else {
      var dec' := Uleb128.Decode(d, o3);
      assert dec'.value.nextOffset == k;
      ReadPrefix(data, k, k);
    }
  }

  lemma CountersPrefixRejected(data: seq<byte>, o5: nat, day: nat, amount: nat, timestamp: nat, sign: seq<byte>, k: nat)
    requires o5 <= k <= |data| && day <= LastDayOfWeek && amount < U64.Limit && timestamp < U64.Limit
    requires k < ParseCounters(data, o5, day, amount, timestamp, sign).nextOffset
    ensures ParseCounters(data[..k], o5, day, amount, timestamp, sign).Rejected?
  {
    ReadPrefix(data, o5, k);
    ReadPrefix(data, o5 + U64.Width, k);
  }

  /** A u64 read from a prefix of the buffer agrees with the full buffer
      when the prefix holds all eight bytes, and fails otherwise. */
  lemma ReadPrefix(data: seq<byte>, offset: nat, k: nat)
    requires k <= |data|
    ensures offset + U64.Width <= k ==> U64.Read(data[..k], offset) == U64.Read(data, offset)
    ensures offset + U64.Width > k ==> U64.Read(data[..k], offset).Failure?
  {
    if offset + U64.Width <= k {
      assert data[..k][offset..offset + U64.Width] == data[offset..offset + U64.Width];
    }
  }

  /** A varint that decodes from the full buffer decodes identically from a
      prefix that holds it, and from a prefix that cuts it decodes as a
      truncated varint stopping at the end of the prefix. */
  lemma DecodePrefix(data: seq<byte>, offset: nat, k: nat)
    requires offset <= k <= |data|
    requires Uleb128.Decode(data, offset).Success?
    ensures var r := Uleb128.Decode(data, offset);
      && (r.value.nextOffset <= k ==> Uleb128.Decode(data[..k], offset) == r)
      && (k < r.value.nextOffset ==>
            Uleb128.Decode(data[..k], offset).Success? &&
            Uleb128.Decode(data[..k], offset).value.nextOffset == k)
  {
    var r := Uleb128.Decode(data, offset);
    var d := data[..k];
    var n := r.value.nextOffset;
    if offset < k {
      var r' := Uleb128.Decode(d, offset);
      var n' := r'.value.nextOffset;
      if n <= k {
        assert d[offset..n] == data[offset..n];
      }
    }
  }

  /** A claim submitted for `reward` whole tokens is recorded as
      reward * 10^6 minor units; decoding that record gives `reward` back as
      its daily reward. */
  lemma SubmittedRewardRecovered(data: seq<byte>, start: nat, c: ClaimRecord, reward: nat)
    requires Serializable(c)
    requires c.amount == reward * MinorUnitsPerToken
    requires start + |Serialize(c)| <= |data|
    requires data[start..start + |Serialize(c)|] == Serialize(c)
    ensures ParseSingleClaim(data, start).Parsed?
    ensures ParseSingleClaim(data, start).claim.dailyReward == reward
  {
    ParseSerialized(data, start, c);
  }
}

=== FILE: clock.dfy ===
/** The ledger clock as `useSuiTime.getSuiTime` and `getCurrentDayOfWeek`
    turn a millisecond timestamp into calendar fields: days since the Unix
    epoch, a day of week with Sunday = 0, a week number counting Sundays,
    and a coarse year of 365-day blocks anchored at 2024-01-01.

    JavaScript's `Math.floor(a / b)` with b > 0 is floor division, which is
    Dafny's `/` on `int` for a positive divisor.  JavaScript's `%` is a
    truncated remainder (negative for a negative left operand), which
    Dafny's `%` is not: it is written out as JsRem. */
module Clock {
  import opened Wrappers

  const MsPerSecond: nat := 1000
  const SecondsPerDay: nat := 86400
  const MsPerDay: nat := MsPerSecond * SecondsPerDay

  /** 1970-01-01 was a Thursday. */
  const EpochWeekday: nat := 4
  const DaysPerWeek: nat := 7

  /** Day 19723 since the epoch is 2024-01-01; the year counts 365-day
      blocks from there. */
  const YearAnchorDay: int := 19723
  const AnchorYear: int := 2024
  const DaysPerYear: nat := 365

  /** The widest instant a JavaScript Date holds: 10^8 days either side of
      the epoch.  Formatting a Date beyond it (`toISOString`) throws. */
  const MaxDateMs: int := 100_000_000 * MsPerDay

  /** JavaScript's `a % b` for b > 0: the sign follows `a`, and the
      result differs from `a` by a multiple of `b`. */
  function JsRem(a: int, b: int): (r: int)
    requires b > 0
    ensures a >= 0 ==> r == a % b
    ensures a < 0 ==> -b < r <= 0
    ensures (a - r) % b == 0
  {
    if a >= 0 then
      assert a - a % b == b * (a / b);
      MultipleMod(b, a / b);
      a % b
    else
      var q := (-a) / b;
      var m := (-a) % b;
      assert a + m == b * -q;
      MultipleMod(b, -q);
      -m
  }

  /** A multiple of `b` leaves no remainder. */
  lemma MultipleMod(b: int, k: int)
    requires b > 0
    ensures (b * k) % b == 0
  {
    var q := (b * k) / b;
    assert b * (k - q) == (b * k) % b;
    if k - q >= 1 {
      assert false;
    } else if k - q <= -1 {
      assert false;
    }
  }

  /** The calendar fields both branches of getSuiTime compute. */
  datatype TimeFields = TimeFields(daysSinceEpoch: int, dayOfWeek: int, weekNumber: int, year: int)

  /** The arithmetic of getSuiTime, written once: the primary branch (ledger
      clock) and the fallback branch (local clock) run the same statements
      on their own timestamp. */
  function DeriveFields(timestampMs: int): (f: TimeFields)
    ensures timestampMs >= 0 ==>
      && f.daysSinceEpoch == EpochDay(timestampMs)
      && f.dayOfWeek == Weekday(f.daysSinceEpoch)
      && f.weekNumber == WeekOf(f.daysSinceEpoch)
      && f.year == YearOf(f.daysSinceEpoch)
  {
    var seconds := timestampMs / MsPerSecond;
    var days := seconds / SecondsPerDay;
    var dayOfWeek := JsRem(days + EpochWeekday, DaysPerWeek);
    var daysSinceSunday := JsRem(days + EpochWeekday, DaysPerWeek);
    var sundayOfCurrentWeek := days - daysSinceSunday;
    var weekNumber := sundayOfCurrentWeek / DaysPerWeek;
    var yearsSince2024 := (days - YearAnchorDay) / DaysPerYear;
    DaysFromMs(timestampMs);
    SundayWeek(days);
    TimeFields(days, dayOfWeek, weekNumber, AnchorYear + yearsSince2024)
  }

  /** The fallback of getCurrentDayOfWeek: only the day of week, from the
      local clock. */
  function LocalDayOfWeek(utcTimestamp: int): (dow: int)
    ensures utcTimestamp >= 0 ==> dow == Weekday(EpochDay(utcTimestamp))
  {
    var utcSeconds := utcTimestamp / MsPerSecond;
    var utcDaysSinceEpoch := utcSeconds / SecondsPerDay;
    DaysFromMs(utcTimestamp);
    JsRem(utcDaysSinceEpoch + EpochWeekday, DaysPerWeek)
  }

  // ---------------------------------------------------------------------------
  // The two entry points

  /** What the ledger's clock object query gave: no client at all, a failed
      request, or the object, whose `timestamp_ms` field may be missing. */
  datatype ClockQuery =
    | ClientMissing
    | FetchFailed
    | ClockObject(timestampMs: Option<int>)

  /** Why the fallback was taken (the message stored in `error`):
      TimestampOutOfRange is the RangeError of formatting a ledger
      timestamp no Date can hold. */
  datatype ClockError = ClientUnavailable | RequestFailed | TimestampUnreadable | TimestampOutOfRange

  /** A Date can hold the instant `ms`. */
  predicate DateRepresentable(ms: int) {
    -MaxDateMs <= ms <= MaxDateMs
  }

  /** The object getSuiTime returns and stores. */
  datatype ClockReading = ClockReading(
    timestamp: int,
    fields: TimeFields,
    isLoaded: bool,
    error: Option<ClockError>)

  /** `getSuiTime(suiClient)`: the ledger's timestamp when the clock object
      carries one a Date can hold, otherwise the local clock `localNowMs`
      with the reason recorded; either way the reading counts as loaded. */
  function GetSuiTime(query: ClockQuery, localNowMs: int): (r: ClockReading)
    ensures r.isLoaded
    ensures r.error.None? <==>
      query.ClockObject? && query.timestampMs.Some? && DateRepresentable(query.timestampMs.value)
    ensures r.error.None? ==> r.timestamp == query.timestampMs.value
    ensures r.error.Some? ==> r.timestamp == localNowMs
    ensures query.ClientMissing? ==> r.error == Some(ClientUnavailable)
    ensures query.FetchFailed? ==> r.error == Some(RequestFailed)
    ensures query == ClockObject(None) ==> r.error == Some(TimestampUnreadable)
    ensures query.ClockObject? && query.timestampMs.Some? && !DateRepresentable(query.timestampMs.value)
      ==> r.error == Some(TimestampOutOfRange)
    ensures r.timestamp >= 0 ==> r.fields.dayOfWeek == Weekday(EpochDay(r.timestamp))
  {
    match query
    case ClockObject(Some(timestampMs)) =>
      if DateRepresentable(timestampMs) then
        ClockReading(timestampMs, DeriveFields(timestampMs), true, None)
      else
        ClockReading(localNowMs, DeriveFields(localNowMs), true, Some(TimestampOutOfRange))
    case ClockObject(None) =>
      ClockReading(localNowMs, DeriveFields(localNowMs), true, Some(TimestampUnreadable))
    case ClientMissing =>
      ClockReading(localNowMs, DeriveFields(localNowMs), true, Some(ClientUnavailable))
    case FetchFailed =>
      ClockReading(localNowMs, DeriveFields(localNowMs), true, Some(RequestFailed))
  }

  /** `getCurrentDayOfWeek()`: the stored reading's day once a reading has
      loaded (the hook starts with none), else the local clock's. */
  function CurrentDayOfWeek(stored: Option<ClockReading>, localNowMs: int): (dow: int)
    ensures stored.Some? && stored.value.isLoaded ==> dow == stored.value.fields.dayOfWeek
    ensures !(stored.Some? && stored.value.isLoaded) && localNowMs >= 0 ==> dow == Weekday(EpochDay(localNowMs))
  {
    match stored
    case Some(reading) =>
      if reading.isLoaded then reading.fields.dayOfWeek else LocalDayOfWeek(localNowMs)
    case None => LocalDayOfWeek(localNowMs)
  }

  /** Once getSuiTime has stored a reading, the day of week is the ledger
      timestamp's when the clock object had one and the local clock's at
      the time of the query otherwise; the clock at the time of the call no
      longer matters. */
  lemma StoredDayOfWeek(query: ClockQuery, queriedAtMs: int, nowMs: int)
    requires queriedAtMs >= 0
    requires query.ClockObject? && query.timestampMs.Some? ==> query.timestampMs.value >= 0
    ensures var ts :=
        if query.ClockObject? && query.timestampMs.Some? && DateRepresentable(query.timestampMs.value)
        then query.timestampMs.value else queriedAtMs;
      CurrentDayOfWeek(Some(GetSuiTime(query, queriedAtMs)), nowMs) == Weekday(EpochDay(ts))
  {
  }

  // ---------------------------------------------------------------------------
  // Reference calendar

  /** Whole days since the epoch, counted directly in milliseconds. */
  function EpochDay(ms: int): int {
    ms / MsPerDay
  }

  /** Day of week of day `d`, Sunday = 0, as a true (non-negative) modulus. */
  function Weekday(d: int): int {
    (d + EpochWeekday) % DaysPerWeek
  }

  /** Index of the week (Sunday to Saturday) holding day `d`: week 0 is
      the first whole week after the epoch, from Sunday 1970-01-04, so the
      epoch's own week, from Sunday 1969-12-28, is week -1. */
  function WeekOf(d: int): int {
    (d + EpochWeekday) / DaysPerWeek - 1
  }

  /** The year block of day `d`. */
  function YearOf(d: int): int {
    AnchorYear + (d - YearAnchorDay) / DaysPerYear
  }

  // ---------------------------------------------------------------------------
  // Arithmetic used by the contracts

  /** Flooring to seconds and then to days is flooring to days. */
  lemma DaysFromMs(ms: int)
    ensures (ms / MsPerSecond) / SecondsPerDay == ms / MsPerDay
  {
    var q := ms / 1000;
    var q2 := q / 86400;
    var r := ms - 1000 * q;
    var r2 := q - 86400 * q2;
    assert ms == 86_400_000 * q2 + (1000 * r2 + r);
    assert 0 <= 1000 * r2 + r < 86_400_000;
  }

  /** The week number of the source, floor((d - dow) / 7), is the reference
      week for every day from the epoch's Sunday on. */
  lemma SundayWeek(d: int)
    ensures d + EpochWeekday >= 0 ==> JsRem(d + EpochWeekday, DaysPerWeek) == Weekday(d)
    ensures d + EpochWeekday >= 0 ==> (d - JsRem(d + EpochWeekday, DaysPerWeek)) / DaysPerWeek == WeekOf(d)
  {
    if d + EpochWeekday >= 0 {
      var k := WeekOf(d);
      var w := Weekday(d);
      assert d - w == 7 * k + 3;
    }
  }

  // ---------------------------------------------------------------------------
  // Properties

  /** getCurrentDayOfWeek's own fallback and getSuiTime's arithmetic give
      the same day of week for every timestamp, negative ones included. */
  lemma LocalDayAgrees(ms: int)
    ensures LocalDayOfWeek(ms) == DeriveFields(ms).dayOfWeek
  {
  }

  /** The fallback branch fed the same instant as the ledger gives exactly
      the fields of the primary branch: only `error` tells them apart. */
  lemma FallbackAgreesWithLedger(ms: int, failed: ClockQuery, localNowMs: int)
    requires DateRepresentable(ms)
    requires !(failed.ClockObject? && failed.timestampMs.Some?)
    ensures GetSuiTime(failed, ms).fields == GetSuiTime(ClockObject(Some(ms)), localNowMs).fields
    ensures GetSuiTime(failed, ms).timestamp == GetSuiTime(ClockObject(Some(ms)), localNowMs).timestamp
  {
  }

  /** Before the epoch the JavaScript remainder goes negative: five days
      before 1970-01-01, a Saturday, the day of week comes out as -1. */
  lemma PreEpochDayOfWeek()
    ensures DeriveFields(-5 * MsPerDay).dayOfWeek == -1
    ensures Weekday(EpochDay(-5 * MsPerDay)) == 6
  {
  }

  /** For any timestamp from the epoch on, the day of week is in 0..6, and
      the epoch's own day, 1970-01-01, is a Thursday. */
  lemma DayOfWeekRange(ms: int)
    requires ms >= 0
    ensures 0 <= DeriveFields(ms).dayOfWeek < DaysPerWeek
    ensures ms < MsPerDay ==> DeriveFields(ms).dayOfWeek == EpochWeekday
  {
  }

  /** 2024-01-01 (day 19723) is a Monday, in year 2024. */
  lemma YearAnchor()
    ensures DeriveFields(YearAnchorDay * MsPerDay).daysSinceEpoch == YearAnchorDay
    ensures DeriveFields(YearAnchorDay * MsPerDay).dayOfWeek == 1
    ensures DeriveFields(YearAnchorDay * MsPerDay).year == AnchorYear
  {
  }

  /** A day later the day count grows by one, the day of week moves on by
      one modulo 7, and the week number grows exactly when the new day is a
      Sunday. */
  lemma NextDay(ms: int)
    requires ms >= 0
    ensures var f := DeriveFields(ms);
      var g := DeriveFields(ms + MsPerDay);
      && g.daysSinceEpoch == f.daysSinceEpoch + 1
      && g.dayOfWeek == (f.dayOfWeek + 1) % DaysPerWeek
      && g.weekNumber == f.weekNumber + (if g.dayOfWeek == 0 then 1 else 0)
  {
    var d := EpochDay(ms);
    assert EpochDay(ms + MsPerDay) == d + 1;
    WeekStep(d);
  }

  lemma {:induction false} WeekStep(d: int)
    requires d + EpochWeekday >= 0
    ensures Weekday(d + 1) == (Weekday(d) + 1) % DaysPerWeek
    ensures WeekOf(d + 1) == WeekOf(d) + (if Weekday(d + 1) == 0 then 1 else 0)
  {
    var k := (d + EpochWeekday) / DaysPerWeek;
    var w := Weekday(d);
    assert d + EpochWeekday == 7 * k + w;
    if w == 6 {
      assert d + 1 + EpochWeekday == 7 * (k + 1) + 0;
    } else {
      assert d + 1 + EpochWeekday == 7 * k + (w + 1);
    }
  }

  /** Two days get the same week number exactly when they share the Sunday
      that starts their week. */
  lemma SameWeek(d: int, e: int)
    requires d + EpochWeekday >= 0 && e + EpochWeekday >= 0
    ensures WeekOf(d) == WeekOf(e) <==> d - Weekday(d) == e - Weekday(e)
  {
    assert d - Weekday(d) == 7 * WeekOf(d) + 3;
    assert e - Weekday(e) == 7 * WeekOf(e) + 3;
  }

  /** The year never goes backwards as time passes. */
  lemma YearMonotone(ms: int, later: int)
    requires 0 <= ms <= later
    ensures DeriveFields(ms).year <= DeriveFields(later).year
  {
    assert EpochDay(ms) <= EpochDay(later);
  }

  /** Day r of the k-th 365-day block after the anchor is in year 2024 + k:
      the year is exactly the count of whole blocks elapsed. */
  lemma YearBlocks(k: int, r: int)
    requires 0 <= r < DaysPerYear
    ensures YearOf(YearAnchorDay + DaysPerYear * k + r) == AnchorYear + k
  {
  }
}

=== FILE: progress.dfy ===
/** The weekly-progress query result, a BCS `vector<DailyClaimInfo>`:
    `parseFlatClaimData` reads the ULEB128 count and then records, keyed by
    day of week, stopping at the first record that fails and keeping what it
    has; `parseWeeklyProgressResult` is the envelope check in front of it. */
module Progress {
  import opened Bytes
  import opened Wrappers
  import Uleb128
  import opened Claim

  /** Claim records keyed by day of week (the source's `progressByDay`). */
  type WeeklyProgress = map<nat, ClaimRecord>

  /** Every entry sits under its own day, a day of the week, and is a record
      the decoder can produce. */
  ghost predicate DayKeyed(m: WeeklyProgress) {
    forall d :: d in m ==> d <= LastDayOfWeek && m[d].dayOfWeek == d && WellFormed(m[d])
  }

  /** The `for (let i = 0; i < vectorLength; i++)` loop: `remaining` records
      still to read from `offset`, `acc` the map so far.  A rejected or
      thrown record ends the loop with the map as it stands. */
  function ParseClaims(data: seq<byte>, offset: nat, remaining: nat, acc: WeeklyProgress): (m: WeeklyProgress)
    ensures DayKeyed(acc) ==> DayKeyed(m)
    ensures acc.Keys <= m.Keys
    decreases remaining
  {
    if remaining == 0 then acc
    else match ParseSingleClaim(data, offset)
      case Parsed(c, next) => ParseClaims(data, next, remaining - 1, acc[c.dayOfWeek := c])
      case _ => acc
  }

  /** `parseFlatClaimData(data)`: an empty buffer, or a count varint that
      runs too long, gives the empty map; the result never holds more than
      one entry per day. */
  function ParseFlatClaimData(data: seq<byte>): (m: WeeklyProgress)
    ensures DayKeyed(m)
    ensures |m| <= LastDayOfWeek + 1
    ensures |data| == 0 ==> m == map[]
    ensures Uleb128.Decode(data, 0).Failure? ==> m == map[]
  {
    var m :=
      if |data| == 0 then map[]
      else match Uleb128.Decode(data, 0)
        case Failure(_) => map[]
        case Success(Decoded(count, offset)) => ParseClaims(data, offset, count, map[]);
    DayKeyedSize(m);
    m
  }

  /** `parseWeeklyProgressResult(result)`: the serialized bytes of the
      first return value, when the response has them and they are not
      empty, go to the collection decoder; anything else is the empty map. */
  function ParseWeeklyProgressResult(returnValue: Option<seq<byte>>): (m: WeeklyProgress)
    ensures DayKeyed(m)
    ensures returnValue.None? ==> m == map[]
    ensures returnValue.Some? ==> m == ParseFlatClaimData(returnValue.value)
  {
    match returnValue
    case Some(serialized) =>
      if |serialized| > 0 then ParseFlatClaimData(serialized) else map[]
    case None => map[]
  }

  lemma DayKeyedSize(m: WeeklyProgress)
    requires DayKeyed(m)
    ensures |m| <= LastDayOfWeek + 1
  {
    var week: set<nat> := {0, 1, 2, 3, 4, 5, 6};
    assert m.Keys <= week;
    SubsetSize(m.Keys, week);
  }

  lemma SubsetSize(a: set<nat>, b: set<nat>)
    requires a <= b
    ensures |a| <= |b|
  {
    if a != {} {
      var x :| x in a;
      SubsetSize(a - {x}, b - {x});
    }
  }

  // ---------------------------------------------------------------------------
  // Reference: folding records into the map

  /** The map that inserting `rs` in order into `acc` gives, a later record
      for a day replacing an earlier one. */
  function Fold(rs: seq<ClaimRecord>, acc: WeeklyProgress): WeeklyProgress {
    if |rs| == 0 then acc else Fold(rs[1..], acc[rs[0].dayOfWeek := rs[0]])
  }

  /** Records written back to back, as the vector body holds them. */
  function SerializeAll(rs: seq<ClaimRecord>): seq<byte>
    requires forall i :: 0 <= i < |rs| ==> Serializable(rs[i])
  {
    if |rs| == 0 then []
    else
      assert Serializable(rs[0]);
      Serialize(rs[0]) + SerializeAll(rs[1..])
  }

  /** The days the fold fills are the days of the records it inserts. */
  lemma {:induction false} FoldKeys(rs: seq<ClaimRecord>, acc: WeeklyProgress)
    ensures Fold(rs, acc).Keys == acc.Keys + set i | 0 <= i < |rs| :: rs[i].dayOfWeek
  {
    if |rs| > 0 {
      FoldKeys(rs[1..], acc[rs[0].dayOfWeek := rs[0]]);
      var tailDays := set i | 0 <= i < |rs[1..]| :: rs[1..][i].dayOfWeek;
      var allDays := set i | 0 <= i < |rs| :: rs[i].dayOfWeek;
      assert allDays == {rs[0].dayOfWeek} + tailDays by {
        forall d | d in allDays ensures d in {rs[0].dayOfWeek} + tailDays {
          var i :| 0 <= i < |rs| && rs[i].dayOfWeek == d;
          if i > 0 {
            assert rs[1..][i - 1].dayOfWeek == d;
          }
        }
        forall d | d in tailDays ensures d in allDays {
          var i :| 0 <= i < |rs[1..]| && rs[1..][i].dayOfWeek == d;
          assert rs[i + 1].dayOfWeek == d;
        }
      }
    }
  }

  /** A record that no later record of the same day follows is the one the
      fold keeps for its day. */
  lemma {:induction false} FoldKeepsLast(rs: seq<ClaimRecord>, acc: WeeklyProgress, i: nat)
    requires i < |rs|
    requires forall j :: i < j < |rs| ==> rs[j].dayOfWeek != rs[i].dayOfWeek
    ensures rs[i].dayOfWeek in Fold(rs, acc) && Fold(rs, acc)[rs[i].dayOfWeek] == rs[i]
  {
    if i == 0 {
      FoldUntouched(rs[1..], acc[rs[0].dayOfWeek := rs[0]], rs[0].dayOfWeek);
    } else {
      FoldKeepsLast(rs[1..], acc[rs[0].dayOfWeek := rs[0]], i - 1);
    }
  }

  /** A day that none of the records has keeps its entry from `acc`. */
  lemma {:induction false} FoldUntouched(rs: seq<ClaimRecord>, acc: WeeklyProgress, d: nat)
    requires forall j :: 0 <= j < |rs| ==> rs[j].dayOfWeek != d
    ensures d in Fold(rs, acc) <==> d in acc
    ensures d in acc ==> Fold(rs, acc)[d] == acc[d]
  {
    if |rs| > 0 {
      FoldUntouched(rs[1..], acc[rs[0].dayOfWeek := rs[0]], d);
    }
  }

  // ---------------------------------------------------------------------------
  // Decoder properties

  /** The records `rs` decode one after another from `offset`, the last
      ending at `end`. */
  ghost predicate DecodesTo(data: seq<byte>, offset: nat, rs: seq<ClaimRecord>, end: nat)
    decreases |rs|
  {
    if |rs| == 0 then end == offset
    else
      var p := ParseSingleClaim(data, offset);
      p.Parsed? && p.claim == rs[0] && DecodesTo(data, p.nextOffset, rs[1..], end)
  }

  /** Reading records that decode one after another inserts them in order,
      then carries on after them with the count reduced. */
  lemma {:induction false} ParseClaimsDecoded(
    data: seq<byte>, offset: nat, rs: seq<ClaimRecord>, end: nat, remaining: nat, acc: WeeklyProgress)
    requires DecodesTo(data, offset, rs, end)
    requires |rs| <= remaining
    ensures ParseClaims(data, offset, remaining, acc) == ParseClaims(data, end, remaining - |rs|, Fold(rs, acc))
    decreases |rs|
  {
    hide ParseSingleClaim;
    if |rs| > 0 {
      var p := ParseSingleClaim(data, offset);
      var acc' := acc[rs[0].dayOfWeek := rs[0]];
      assert ParseClaims(data, offset, remaining, acc) == ParseClaims(data, p.nextOffset, remaining - 1, acc');
      ParseClaimsDecoded(data, p.nextOffset, rs[1..], end, remaining - 1, acc');
      assert remaining - 1 - |rs[1..]| == remaining - |rs|;
      assert Fold(rs[1..], acc') == Fold(rs, acc);
    }
  }

  /** Records serialized back to back decode one after another. */
  lemma {:induction false} SerializedDecode(data: seq<byte>, offset: nat, rs: seq<ClaimRecord>)
    requires forall i :: 0 <= i < |rs| ==> Serializable(rs[i])
    requires offset + |SerializeAll(rs)| <= |data|
    requires data[offset..offset + |SerializeAll(rs)|] == SerializeAll(rs)
    ensures DecodesTo(data, offset, rs, offset + |SerializeAll(rs)|)
    decreases |rs|
  {
    hide ParseSingleClaim;
    if |rs| > 0 {
      var n := FirstRecordParses(data, offset, rs);
      SerializedDecode(data, offset + n, rs[1..]);
    }
  }

  /** The first of several serialized records decodes, and the rest follow
      it `n` bytes on. */
  lemma FirstRecordParses(data: seq<byte>, offset: nat, rs: seq<ClaimRecord>) returns (n: nat)
    requires forall i :: 0 <= i < |rs| ==> Serializable(rs[i])
    requires 0 < |rs|
    requires offset + |SerializeAll(rs)| <= |data|
    requires data[offset..offset + |SerializeAll(rs)|] == SerializeAll(rs)
    ensures ParseSingleClaim(data, offset) == Parsed(rs[0], offset + n)
    ensures offset + n + |SerializeAll(rs[1..])| == offset + |SerializeAll(rs)|
    ensures data[offset + n..offset + n + |SerializeAll(rs[1..])|] == SerializeAll(rs[1..])
  {
    hide ParseSingleClaim, Serialize;
    var s := SerializeAll(rs);
    var c := rs[0];
    assert Serializable(c);
    n := |Serialize(c)|;
    var tail := SerializeAll(rs[1..]);
    assert s == Serialize(c) + tail;
    SliceOfSlice(data, offset, offset + |s|, 0, n);
    assert s[..n] == Serialize(c);
    ParseSerialized(data, offset, c);
    SliceOfSlice(data, offset, offset + |s|, n, |s|);
    assert s[n..] == tail;
  }

  /** Collection decoding: a count of at least N, N serialized records, and
      then either nothing more to read or a record that fails decode to
      exactly the N records folded into a map, later ones winning. */
  lemma FlatClaimDataSerialized(count: nat, rs: seq<ClaimRecord>, rest: seq<byte>)
    requires forall i :: 0 <= i < |rs| ==> Serializable(rs[i])
    requires |rs| <= count < Pow2(64)
    requires var data := Uleb128.Encode(count) + SerializeAll(rs) + rest;
      count == |rs| || !ParseSingleClaim(data, |Uleb128.Encode(count)| + |SerializeAll(rs)|).Parsed?
    ensures ParseFlatClaimData(Uleb128.Encode(count) + SerializeAll(rs) + rest) == Fold(rs, map[])
  {
    hide *;
    var e := Uleb128.Encode(count);
    var s := SerializeAll(rs);
    var data := e + s + rest;
    var end := |e| + |s|;
    assert data[0..|e|] == e;
    Uleb128.DecodeEncode(data, 0, count);
    FlatClaimDataCount(data, count, |e|);
    assert data[|e|..end] == s;
    SerializedDecode(data, |e|, rs);
    ParseClaimsDecoded(data, |e|, rs, end, count, map[]);
    ParseClaimsStops(data, end, count - |rs|, Fold(rs, map[]));
  }

  /** A count that decodes hands the records after it to the loop. */
  lemma FlatClaimDataCount(data: seq<byte>, count: nat, offset: nat)
    requires Uleb128.Decode(data, 0) == Success(Uleb128.Decoded(count, offset))
    ensures ParseFlatClaimData(data) == ParseClaims(data, offset, count, map[])
  {
  }

  /** The loop ends, keeping its map, when the count is used up or the
      record at the cursor does not parse. */
  lemma ParseClaimsStops(data: seq<byte>, offset: nat, remaining: nat, acc: WeeklyProgress)
    requires remaining == 0 || !ParseSingleClaim(data, offset).Parsed?
    ensures ParseClaims(data, offset, remaining, acc) == acc
  {
  }

  /** N serialized records followed by a record whose day byte is out of
      range decode to the N records, whatever the count says beyond N. */
  lemma RecordsThenBadDay(count: nat, rs: seq<ClaimRecord>, rest: seq<byte>)
    requires forall i :: 0 <= i < |rs| ==> Serializable(rs[i])
    requires |rs| <= count < Pow2(64)
    requires |rest| > 0 && rest[0] > LastDayOfWeek
    ensures ParseFlatClaimData(Uleb128.Encode(count) + SerializeAll(rs) + rest) == Fold(rs, map[])
  {
    hide *;
    var data := Uleb128.Encode(count) + SerializeAll(rs) + rest;
    var at := |Uleb128.Encode(count)| + |SerializeAll(rs)|;
    assert data[at] == rest[0];
    BadDayRejected(data, at);
    FlatClaimDataSerialized(count, rs, rest);
  }
}

=== FILE: rewards.dfy ===
/** The reward and status rules of the claim screen: the daily reward
    schedule, the streak, the ledger's "claimed today" flag, whether today
    is done, the amount shown for today, and the amount a claim submits. */
module Rewards {
  import opened Bytes
  import opened Claim
  import opened Progress
  import U64

  const BaseReward: nat := 10
  const StreakBonus: nat := 5

  /** The bonus grows once every this many days of streak. */
  const DaysPerBonus: nat := 3

  // ---------------------------------------------------------------------------
  // Reward schedule

  /** `calculateDailyReward(dayCount)`: 10 tokens, plus 5 for every full
      three days. */
  function CalculateDailyReward(dayCount: nat): (r: nat)
    ensures r >= BaseReward
  {
    BaseReward + (dayCount / DaysPerBonus) * StreakBonus
  }

  /** The reward is 10 + 5k exactly on the three day counts 3k, 3k+1,
      3k+2: the schedule read backwards. */
  lemma RewardTier(dayCount: nat, k: nat)
    ensures CalculateDailyReward(dayCount) == BaseReward + StreakBonus * k
        <==> DaysPerBonus * k <= dayCount < DaysPerBonus * k + DaysPerBonus
  {
  }

  /** A longer streak never earns less. */
  lemma RewardMonotone(a: nat, b: nat)
    requires a <= b
    ensures CalculateDailyReward(a) <= CalculateDailyReward(b)
  {
    assert a / DaysPerBonus <= b / DaysPerBonus;
  }

  /** The first tiers: 10 for day counts 0-2, 15 for 3-5, 20 for 6-8. */
  lemma RewardFirstTiers(dayCount: nat)
    ensures dayCount < 3 ==> CalculateDailyReward(dayCount) == 10
    ensures 3 <= dayCount < 6 ==> CalculateDailyReward(dayCount) == 15
    ensures 6 <= dayCount < 9 ==> CalculateDailyReward(dayCount) == 20
  {
  }

  // ---------------------------------------------------------------------------
  // Streak

  /** `getDailyStreak()`: the number of days with a recorded claim this
      week. */
  function DailyStreak(m: WeeklyProgress): (n: nat)
    ensures DayKeyed(m) ==> n <= LastDayOfWeek + 1
    ensures n == 0 <==> m == map[]
  {
    DayKeyedBound(m);
    |m|
  }

  lemma DayKeyedBound(m: WeeklyProgress)
    ensures DayKeyed(m) ==> |m| <= LastDayOfWeek + 1
  {
    if DayKeyed(m) {
      DayKeyedSize(m);
    }
  }

  /** After decoding records, the streak counts the distinct days among
      them, however often a day repeats. */
  lemma StreakCountsDistinctDays(rs: seq<ClaimRecord>)
    ensures DailyStreak(Fold(rs, map[])) == |set i | 0 <= i < |rs| :: rs[i].dayOfWeek|
  {
    FoldKeys(rs, map[]);
    var m := Fold(rs, map[]);
    assert |m| == |m.Keys|;
  }

  // ---------------------------------------------------------------------------
  // The "claimed today" flag

  /** `blockchainClaimStatus`. */
  datatype ClaimStatus = Checking | Claimed | NotClaimed

  /** One entry of a Move call's return value as the inspect call lists it:
      the serialized bytes, or anything else (the type name). */
  datatype ReturnEntry = Serialized(bytes: seq<byte>) | Other

  /** What checkBlockchainClaimStatus got: no connected account, a failed
      inspect call, a response without a first return value, or that
      return value. */
  datatype FlagQuery =
    | NoAccount
    | InspectFailed
    | NoReturnValue
    | ReturnValue(entries: seq<ReturnEntry>)

  /** `checkBlockchainClaimStatus`: "checking" without an account, and
      otherwise "claimed" only for a well-shaped return value (bytes and type)
      whose first byte is exactly 1; every failure reads as "not claimed". */
  function ClaimStatusOf(q: FlagQuery): (s: ClaimStatus)
    ensures s == Checking <==> q.NoAccount?
    ensures s == Claimed <==>
      && q.ReturnValue? && |q.entries| >= 2
      && q.entries[0].Serialized? && |q.entries[0].bytes| > 0
      && q.entries[0].bytes[0] == 1
  {
    match q
    case NoAccount => Checking
    case InspectFailed => NotClaimed
    case NoReturnValue => NotClaimed
    case ReturnValue(entries) =>
      if |entries| >= 2 && entries[0].Serialized? && |entries[0].bytes| > 0 && entries[0].bytes[0] == 1
      then Claimed
      else NotClaimed
  }

  /** The BCS encoding of a Move `bool`: one byte, 1 for true, 0 for false. */
  function EncodeBool(b: bool): seq<byte> {
    if b then [1] else [0]
  }

  /** The flag round trip: the ledger's answer `b`, serialized as a BCS bool
      with its type name, reads back as claimed exactly when `b` holds. */
  lemma ClaimFlagRoundTrip(b: bool, typeName: ReturnEntry)
    ensures ClaimStatusOf(ReturnValue([Serialized(EncodeBool(b)), typeName])) == (if b then Claimed else NotClaimed)
  {
  }

  /** Only the byte 1 means claimed: any other first byte, and a return value
      missing its type entry, read as not claimed. */
  lemma ClaimFlagStrict(bytes: seq<byte>, entries: seq<ReturnEntry>)
    requires |bytes| > 0 && bytes[0] != 1
    ensures ClaimStatusOf(ReturnValue([Serialized(bytes)] + entries)) == NotClaimed
    ensures ClaimStatusOf(ReturnValue([Serialized([1])])) == NotClaimed
  {
  }

  // ---------------------------------------------------------------------------
  // Today

  /** `isTodayCompleted()`: the ledger says so, or this week's progress has
      an entry for today. */
  predicate IsTodayCompleted(status: ClaimStatus, m: WeeklyProgress, today: int)
    ensures status == Claimed ==> IsTodayCompleted(status, m, today)
    ensures status != Claimed ==> (IsTodayCompleted(status, m, today) <==> DailyStreak(m - {today}) < DailyStreak(m))
  {
    status == Claimed || today in m
  }

  /** Without the ledger's flag, today counts as done exactly when one of
      the decoded records of the week is for today. */
  lemma TodayCompletedByRecord(rs: seq<ClaimRecord>, today: nat)
    ensures IsTodayCompleted(NotClaimed, Fold(rs, map[]), today)
        <==> exists i :: 0 <= i < |rs| && rs[i].dayOfWeek == today
  {
    FoldKeys(rs, map[]);
  }

  /** `updateTodaysClaimAmount()`, returning the amount it would set: today's
      recorded reward when there is a non-zero one; otherwise, for a
      completed day, the estimate for one more day of streak, held at 0 while
      the week's progress is still empty; 0 for a day not completed. */
  function TodaysClaimAmount(status: ClaimStatus, m: WeeklyProgress, today: int): (amount: nat)
    ensures !IsTodayCompleted(status, m, today) ==> amount == 0
    ensures today in m && m[today].dailyReward > 0 ==> amount == m[today].dailyReward
    ensures amount > 0 ==> IsTodayCompleted(status, m, today) && |m| > 0
  {
    if status == Claimed || today in m then
      if today in m && m[today].dailyReward > 0 then m[today].dailyReward
      else if |m| == 0 then 0
      else CalculateDailyReward(DailyStreak(m) + 1)
    else 0
  }

  /** A completed day with no usable recorded reward shows the estimate for
      the next streak day, once any progress has loaded. */
  lemma TodayEstimate(status: ClaimStatus, m: WeeklyProgress, today: int)
    requires IsTodayCompleted(status, m, today)
    requires !(today in m && m[today].dailyReward > 0)
    ensures |m| == 0 ==> TodaysClaimAmount(status, m, today) == 0
    ensures |m| > 0 ==> TodaysClaimAmount(status, m, today) == CalculateDailyReward(|m| + 1)
  {
  }

  // ---------------------------------------------------------------------------
  // Claim submission

  /** The whole-token reward a claim submits: the reward for the current
      streak plus today.  For a real week it is 10 to 20 tokens, and the
      first two claims of a week earn the base reward. */
  function SubmittedReward(m: WeeklyProgress): (r: nat)
    ensures BaseReward <= r
    ensures |m| <= LastDayOfWeek + 1 ==> r <= BaseReward + 2 * StreakBonus
    ensures |m| < 2 ==> r == BaseReward
  {
    CalculateDailyReward(DailyStreak(m) + 1)
  }

  /** The `amount` argument of the claim call, in minor units. */
  function SubmittedAmount(m: WeeklyProgress): (amount: nat)
    ensures WholeTokens(amount) == SubmittedReward(m)
    ensures |m| <= LastDayOfWeek + 1 ==> amount < U64.Limit
  {
    SubmittedReward(m) * MinorUnitsPerToken
  }

  /** End to end: the record the ledger stores for a submitted claim decodes
      with the submitted reward as its daily reward. */
  lemma SubmittedClaimDecodes(m: WeeklyProgress, c: ClaimRecord, data: seq<byte>, start: nat)
    requires Serializable(c) && c.amount == SubmittedAmount(m)
    requires start + |Serialize(c)| <= |data|
    requires data[start..start + |Serialize(c)|] == Serialize(c)
    ensures ParseSingleClaim(data, start).Parsed?
    ensures ParseSingleClaim(data, start).claim.dailyReward == SubmittedReward(m)
  {
    SubmittedRewardRecovered(data, start, c, SubmittedReward(m));
  }

  /** Once today's decoded claim is in the week's progress, the amount shown
      for today is the reward that was submitted, whatever the flag says. */
  lemma RecordedClaimShown(status: ClaimStatus, m: WeeklyProgress, today: nat, c: ClaimRecord)
    requires WellFormed(c) && c.amount == SubmittedAmount(m)
    ensures TodaysClaimAmount(status, m[today := c], today) == SubmittedReward(m)
  {
  }
}

=== FILE: u64.dfy ===
/** Fixed-width unsigned 64-bit integers, little-endian, as
    `parseU64LittleEndian` reads them: eight bytes weighed 256^0 .. 256^7. */
module U64 {
  import opened Bytes
  import opened Wrappers

  const Width: nat := 8

  /** 2^64: every u64 field of a claim record lies below it. */
  const Limit: nat := 0x1_0000_0000_0000_0000

  /** JavaScript's Number.MAX_SAFE_INTEGER (2^53 - 1).  Reading a larger
      value only logs a warning; the read still succeeds. */
  const MaxSafeInteger: nat := 0x1F_FFFF_FFFF_FFFF

  /** The failure carries what the source's message reports: the offset and
      how many bytes were left there. */
  datatype ReadError = Truncated(offset: nat, available: int)

  /** Little-endian weight of a byte string: bs[0] + 256*bs[1] + ... */
  function LittleEndian(bs: seq<byte>): nat {
    if |bs| == 0 then 0 else bs[0] + 256 * LittleEndian(bs[1..])
  }

  /** The first `n` little-endian base-256 digits of `v`: the bytes the
      ledger's serializer writes for a u64 when n = 8. */
  function ToLittleEndian(v: nat, n: nat): (bs: seq<byte>)
    ensures |bs| == n
  {
    if n == 0 then [] else [v % 256] + ToLittleEndian(v / 256, n - 1)
  }

  function Write(v: nat): (bs: seq<byte>)
    ensures |bs| == Width
  {
    ToLittleEndian(v, Width)
  }

  /** `parseU64LittleEndian(data, offset)`: fails exactly when fewer than
      eight bytes remain, and otherwise yields a u64 (values above
      MaxSafeInteger included). */
  function Read(data: seq<byte>, offset: nat): (r: Result<nat, ReadError>)
    ensures r.Success? <==> offset + Width <= |data|
    ensures r.Failure? ==> r.error == Truncated(offset, |data| - offset)
    ensures r.Success? ==> r.value < Limit
  {
    if offset + Width > |data| then
      Failure(Truncated(offset, |data| - offset))
    else
      var bs := data[offset..offset + Width];
      LittleEndianBound(bs);
      Success(LittleEndian(bs))
  }

  /** Nothing is lost or invented by a read: writing the value back gives
      exactly the eight bytes read. */
  lemma WriteAfterRead(data: seq<byte>, offset: nat)
    requires offset + Width <= |data|
    ensures Write(Read(data, offset).value) == data[offset..offset + Width]
  {
    WriteRead(data[offset..offset + Width]);
  }

  lemma {:induction false} LittleEndianBound(bs: seq<byte>)
    ensures LittleEndian(bs) < Pow256(|bs|)
  {
    if |bs| > 0 {
      LittleEndianBound(bs[1..]);
    }
  }

  /** Writing back the value of any byte string gives that byte string. */
  lemma {:induction false} WriteRead(bs: seq<byte>)
    ensures ToLittleEndian(LittleEndian(bs), |bs|) == bs
  {
    if |bs| > 0 {
      WriteRead(bs[1..]);
      var v := LittleEndian(bs);
      assert v % 256 == bs[0];
      assert v / 256 == LittleEndian(bs[1..]);
    }
  }

  /** Reading back the bytes written for any `v` below 256^n gives `v`. */
  lemma {:induction false} ReadWrite(v: nat, n: nat)
    requires v < Pow256(n)
    ensures LittleEndian(ToLittleEndian(v, n)) == v
  {
    if n > 0 {
      ReadWrite(v / 256, n - 1);
      assert ToLittleEndian(v, n)[1..] == ToLittleEndian(v / 256, n - 1);
    }
  }

  lemma LimitIsPow2()
    ensures Pow2(64) == Limit
  {
    Pow256IsPow2(8);
  }

  /** A u64 written as eight little-endian bytes anywhere in a buffer reads
      back as itself. */
  lemma ReadWritten(data: seq<byte>, offset: nat, v: nat)
    requires v < Limit
    requires offset + Width <= |data|
    requires data[offset..offset + Width] == Write(v)
    ensures Read(data, offset) == Success(v)
  {
    ReadWrite(v, Width);
  }

  /** The whole u64 range reads without failure, the values above
      MaxSafeInteger included. */
  lemma LargeValuesAreRead()
    ensures Read(Write(Limit - 1), 0) == Success(Limit - 1)
    ensures Limit - 1 > MaxSafeInteger
  {
    ReadWritten(Write(Limit - 1), 0, Limit - 1);
  }
}

=== FILE: uleb128.dfy ===
/** Unsigned LEB128 (the varint of DWARF v4 section 7.6, also the length
    prefix of BCS vectors), as `decodeULEB128` reads it: seven value bits per
    byte, low group first, the high bit meaning "another byte follows".

    The model accumulates over unbounded naturals, where OR-ing disjoint bit
    groups is the same as adding them. */
module Uleb128 {
  import opened Bytes
  import opened Wrappers

  /** The decoder gives up once its shift counter reaches this many bits. */
  const ShiftLimit: nat := 64

  /** The longest encoding the decoder accepts: after nine continuation bytes
      the shift is 63, after ten it is 70 >= ShiftLimit. */
  const MaxEncodedLength: nat := 10

  datatype Decoded = Decoded(value: nat, nextOffset: nat)

  datatype DecodeError = ValueTooLarge

  predicate Continues(b: byte) {
    b >= 128
  }

  /** Every byte of data[from..to] has its continuation bit set. */
  ghost predicate AllContinue(data: seq<byte>, from: int, to: int) {
    forall t :: 0 <= from <= t < to && t < |data| ==> Continues(data[t])
  }

  /** The number the seven-bit groups of `bs` spell, low group first,
      ignoring the continuation bits. */
  function GroupValue(bs: seq<byte>): nat {
    if |bs| == 0 then 0 else bs[0] % 128 + 128 * GroupValue(bs[1..])
  }

  /** The canonical encoding: the shortest one, as the ledger's serializer
      writes it. */
  function Encode(v: nat): (bs: seq<byte>)
    ensures 1 <= |bs|
  {
    if v < 128 then [v] else [v % 128 + 128] + Encode(v / 128)
  }

  // ---------------------------------------------------------------------------
  // The decoder

  /** One iteration of the `while (currentOffset < data.length)` loop of the
      source: `pos` is currentOffset, `shift` the bit position of the next
      group, `acc` the value read so far. */
  function DecodeFrom(data: seq<byte>, pos: nat, shift: nat, acc: nat): Result<Decoded, DecodeError>
    decreases |data| - pos
  {
    if pos >= |data| then Success(Decoded(acc, pos))
    else
      var b := data[pos];
      var acc' := acc + (b % 128) * Pow2(shift);
      if !Continues(b) then Success(Decoded(acc', pos + 1))
      else if shift + 7 >= ShiftLimit then Failure(ValueTooLarge)
      else DecodeFrom(data, pos + 1, shift + 7, acc')
  }

  /** `decodeULEB128(data, offset)`.  It throws (Failure) exactly when ten
      bytes in a row carry the continuation bit; a buffer that ends in the
      middle of a varint yields the groups read so far; an offset at or past
      the end yields 0 without moving. */
  function Decode(data: seq<byte>, offset: nat): (r: Result<Decoded, DecodeError>)
    ensures offset >= |data| ==> r == Success(Decoded(0, offset))
    ensures r.Failure? <==>
              offset + MaxEncodedLength <= |data| && AllContinue(data, offset, offset + MaxEncodedLength)
    ensures r.Success? && offset < |data| ==>
              && offset < r.value.nextOffset <= |data|
              && r.value.nextOffset - offset <= MaxEncodedLength
              && AllContinue(data, offset, r.value.nextOffset - 1)
              && (r.value.nextOffset == |data| || !Continues(data[r.value.nextOffset - 1]))
              && r.value.value == GroupValue(data[offset..r.value.nextOffset])
  {
    DecodeAtShape(data, offset);
    DecodeFrom(data, offset, 0, 0)
  }

  lemma DecodeAtShape(data: seq<byte>, offset: nat)
    ensures offset <= |data| ==> var r := DecodeFrom(data, offset, 0, 0);
      && (r.Failure? <==>
            offset + MaxEncodedLength <= |data| && AllContinue(data, offset, offset + MaxEncodedLength))
      && (r.Success? && offset < |data| ==>
            && offset < r.value.nextOffset <= |data|
            && r.value.nextOffset - offset <= MaxEncodedLength
            && AllContinue(data, offset, r.value.nextOffset - 1)
            && (r.value.nextOffset == |data| || !Continues(data[r.value.nextOffset - 1]))
            && r.value.value == GroupValue(data[offset..r.value.nextOffset]))
  {
    if offset <= |data| {
      DecodeFromShape(data, offset, 0, 0);
    }
  }

  /** What one call of DecodeFrom with `k` groups already consumed does. */
  lemma DecodeFromShape(data: seq<byte>, pos: nat, k: nat, acc: nat)
    requires k < MaxEncodedLength
    requires pos <= |data|
    ensures var r := DecodeFrom(data, pos, 7 * k, acc);
      && (r.Failure? <==>
            pos + (MaxEncodedLength - k) <= |data| && AllContinue(data, pos, pos + (MaxEncodedLength - k)))
      && (r.Success? ==>
            && pos <= r.value.nextOffset <= |data|
            && (pos < |data| ==> pos < r.value.nextOffset)
            && r.value.nextOffset - pos <= MaxEncodedLength - k
            && AllContinue(data, pos, r.value.nextOffset - 1)
            && (pos < r.value.nextOffset < |data| ==> !Continues(data[r.value.nextOffset - 1]))
            && r.value.value == acc + Pow2(7 * k) * GroupValue(data[pos..r.value.nextOffset]))
  {
    DecodeFromFailure(data, pos, k, acc);
    DecodeFromStops(data, pos, k, acc);
    DecodeFromValue(data, pos, k, acc);
  }

  /** The decoder fails exactly on a run of continuation bytes that reaches
      the shift limit. */
  lemma {:induction false} DecodeFromFailure(data: seq<byte>, pos: nat, k: nat, acc: nat)
    requires k < MaxEncodedLength
    requires pos <= |data|
    ensures DecodeFrom(data, pos, 7 * k, acc).Failure? <==>
              pos + (MaxEncodedLength - k) <= |data| && AllContinue(data, pos, pos + (MaxEncodedLength - k))
    decreases |data| - pos
  {
    if pos < |data| {
      var b := data[pos];
      if !Continues(b) {
        assert !AllContinue(data, pos, pos + (MaxEncodedLength - k));
      } else if 7 * k + 7 < ShiftLimit {
        var acc' := acc + (b % 128) * Pow2(7 * k);
        DecodeFromFailure(data, pos + 1, k + 1, acc');
        assert 7 * (k + 1) == 7 * k + 7;
        if pos + (MaxEncodedLength - k) <= |data| && AllContinue(data, pos, pos + (MaxEncodedLength - k)) {
          assert AllContinue(data, pos + 1, pos + 1 + (MaxEncodedLength - (k + 1)));
        }
      }
    }
  }

  /** Where a successful decode stops: after the first byte without the
      continuation bit, or at the end of the buffer. */
  lemma {:induction false} DecodeFromStops(data: seq<byte>, pos: nat, k: nat, acc: nat)
    requires k < MaxEncodedLength
    requires pos <= |data|
    ensures var r := DecodeFrom(data, pos, 7 * k, acc);
      r.Success? ==>
        && pos <= r.value.nextOffset <= |data|
        && (pos < |data| ==> pos < r.value.nextOffset)
        && r.value.nextOffset - pos <= MaxEncodedLength - k
        && AllContinue(data, pos, r.value.nextOffset - 1)
        && (pos < r.value.nextOffset < |data| ==> !Continues(data[r.value.nextOffset - 1]))
    decreases |data| - pos
  {
    if pos < |data| {
      var b := data[pos];
      if Continues(b) && 7 * k + 7 < ShiftLimit {
        var acc' := acc + (b % 128) * Pow2(7 * k);
        DecodeFromStops(data, pos + 1, k + 1, acc');
        assert 7 * (k + 1) == 7 * k + 7;
      }
    }
  }

  /** The value a successful decode returns: the groups it consumed, weighed
      from the current shift on. */
  lemma {:induction false} DecodeFromValue(data: seq<byte>, pos: nat, k: nat, acc: nat)
    requires k < MaxEncodedLength
    requires pos <= |data|
    ensures var r := DecodeFrom(data, pos, 7 * k, acc);
      r.Success? ==>
        pos <= r.value.nextOffset <= |data| &&
        r.value.value == acc + Pow2(7 * k) * GroupValue(data[pos..r.value.nextOffset])
    decreases |data| - pos
  {
    if pos == |data| || !Continues(data[pos]) {
      DecodeFromValueLast(data, pos, k, acc);
    } else if 7 * k + 7 < ShiftLimit {
      hide *;
      var acc' := acc + (data[pos] % 128) * Pow2(7 * k);
      DecodeFromValue(data, pos + 1, k + 1, acc');
      DecodeFromValueStep(data, pos, k, acc);
    }
  }

  /** The value of a decode that stops at once: at the end of the buffer,
      or after one final byte. */
  lemma DecodeFromValueLast(data: seq<byte>, pos: nat, k: nat, acc: nat)
    requires pos <= |data|
    requires pos == |data| || !Continues(data[pos])
    ensures var r := DecodeFrom(data, pos, 7 * k, acc);
      r.Success? ==>
        pos <= r.value.nextOffset <= |data| &&
        r.value.value == acc + Pow2(7 * k) * GroupValue(data[pos..r.value.nextOffset])
  {
    if pos == |data| {
      assert data[pos..pos] == [];
    } else {
      var b := data[pos];
      assert data[pos..pos + 1] == [b];
      assert data[pos..pos + 1][1..] == [];
    }
  }

  /** One continuation byte: the value from `pos` is the value from
      `pos + 1`, one group further up. */
  lemma DecodeFromValueStep(data: seq<byte>, pos: nat, k: nat, acc: nat)
    requires pos < |data| && Continues(data[pos]) && 7 * k + 7 < ShiftLimit
    requires var acc' := acc + (data[pos] % 128) * Pow2(7 * k);
      var r := DecodeFrom(data, pos + 1, 7 * (k + 1), acc');
      r.Success? ==>
        pos + 1 <= r.value.nextOffset <= |data| &&
        r.value.value == acc' + Pow2(7 * (k + 1)) * GroupValue(data[pos + 1..r.value.nextOffset])
    ensures var r := DecodeFrom(data, pos, 7 * k, acc);
      r.Success? ==>
        pos <= r.value.nextOffset <= |data| &&
        r.value.value == acc + Pow2(7 * k) * GroupValue(data[pos..r.value.nextOffset])
  {
    var b := data[pos];
    var p := Pow2(7 * k);
    var acc' := acc + (b % 128) * p;
    assert 7 * (k + 1) == 7 * k + 7;
    var r := DecodeFrom(data, pos, 7 * k, acc);
    assert r == DecodeFrom(data, pos + 1, 7 * (k + 1), acc');
    if r.Success? {
      var n := r.value.nextOffset;
      var g := GroupValue(data[pos + 1..n]);
      assert data[pos..n][1..] == data[pos + 1..n];
      assert GroupValue(data[pos..n]) == b % 128 + 128 * g;
      Pow2Seven(k);
      WeighGroup(acc, b % 128, p, g);
    }
  }

  /** Adding one more seven-bit group at weight p. */
  lemma WeighGroup(acc: nat, c: nat, p: nat, g: nat)
    ensures acc + c * p + (128 * p) * g == acc + p * (c + 128 * g)
  {
    calc {
      acc + c * p + (128 * p) * g;
      acc + p * c + p * (128 * g);
      acc + p * (c + 128 * g);
    }
  }

  // ---------------------------------------------------------------------------
  // Properties

  /** Decoding the canonical encoding of `v`, wherever it sits in a buffer,
      gives back `v` and moves past exactly the encoding.  Any `v` below
      2^64 qualifies. */
  lemma DecodeEncode(data: seq<byte>, offset: nat, v: nat)
    requires v < Pow2(64)
    requires offset + |Encode(v)| <= |data|
    requires data[offset..offset + |Encode(v)|] == Encode(v)
    ensures Decode(data, offset) == Success(Decoded(v, offset + |Encode(v)|))
  {
    EncodeLength(v, MaxEncodedLength);
    Pow2Monotone(64, 7 * MaxEncodedLength);
    DecodeFromEncode(data, offset, 0, 0, v);
  }

  lemma {:induction false} DecodeFromEncode(data: seq<byte>, pos: nat, k: nat, acc: nat, v: nat)
    requires k + |Encode(v)| <= MaxEncodedLength
    requires pos + |Encode(v)| <= |data|
    requires data[pos..pos + |Encode(v)|] == Encode(v)
    ensures DecodeFrom(data, pos, 7 * k, acc) == Success(Decoded(acc + Pow2(7 * k) * v, pos + |Encode(v)|))
    decreases v
  {
    var e := Encode(v);
    assert data[pos] == e[0];
    var p := Pow2(7 * k);
    if v < 128 {
      assert DecodeFrom(data, pos, 7 * k, acc) == Success(Decoded(acc + v * p, pos + 1));
    } else {
      var acc' := acc + (v % 128) * p;
      var tail := Encode(v / 128);
      assert e == [v % 128 + 128] + tail;
      assert data[pos + 1..pos + 1 + |tail|] == e[1..];
      assert DecodeFrom(data, pos, 7 * k, acc) == DecodeFrom(data, pos + 1, 7 * k + 7, acc');
      DecodeFromEncode(data, pos + 1, k + 1, acc', v / 128);
      assert 7 * (k + 1) == 7 * k + 7;
      Pow2Seven(k);
      WeighDigit(acc, v, p);
    }
  }

  /** Splitting off the low seven-bit group of `v` at weight p. */
  lemma WeighDigit(acc: nat, v: nat, p: nat)
    ensures acc + (v % 128) * p + (128 * p) * (v / 128) == acc + p * v
  {
    WeighGroup(acc, v % 128, p, v / 128);
    assert v % 128 + 128 * (v / 128) == v;
  }

  /** The canonical encoding of `v` takes at most `k` bytes exactly when
      `v` fits in 7k bits. */
  lemma {:induction false} EncodeLength(v: nat, k: nat)
    requires k >= 1
    ensures |Encode(v)| <= k <==> v < Pow2(7 * k)
  {
    Pow2Seven(k - 1);
    assert 7 * (k - 1 + 1) == 7 * k;
    if v < 128 {
      Pow2Monotone(7, 7 * k);
      assert Pow2(7) == 128;
    } else if k == 1 {
      assert Pow2(7) == 128;
      assert |Encode(v)| == 1 + |Encode(v / 128)|;
    } else {
      EncodeLength(v / 128, k - 1);
      assert |Encode(v)| == 1 + |Encode(v / 128)|;
      assert v / 128 < Pow2(7 * (k - 1)) <==> v < 128 * Pow2(7 * (k - 1));
    }
  }

  /** The seven-bit groups of the canonical encoding of `v` spell `v`. */
  lemma {:induction false} EncodeGroups(v: nat)
    ensures GroupValue(Encode(v)) == v
    decreases v
  {
    var e := Encode(v);
    if v >= 128 {
      EncodeGroups(v / 128);
      assert e[1..] == Encode(v / 128);
    } else {
      assert e[1..] == [];
    }
  }

  /** Every byte of a canonical encoding but the last carries the
      continuation bit, and the last does not. */
  lemma {:induction false} EncodeMarks(v: nat)
    ensures AllContinue(Encode(v), 0, |Encode(v)| - 1)
    ensures !Continues(Encode(v)[|Encode(v)| - 1])
    decreases v
  {
    var e := Encode(v);
    if v >= 128 {
      var tail := Encode(v / 128);
      EncodeMarks(v / 128);
      assert e == [v % 128 + 128] + tail;
      forall t | 1 <= t < |e| - 1
        ensures Continues(e[t])
      {
        assert e[t] == tail[t - 1];
      }
      assert e[|e| - 1] == tail[|tail| - 1];
    }
  }

  /** A buffer that ends in the middle of a varint of fewer than ten bytes
      is not an error: the decoder returns the groups it saw and stops at
      the end of the buffer. */
  lemma TruncatedVarint(data: seq<byte>, offset: nat)
    requires offset < |data| < offset + MaxEncodedLength
    requires AllContinue(data, offset, |data|)
    ensures Decode(data, offset) == Success(Decoded(GroupValue(data[offset..]), |data|))
  {
    var r := Decode(data, offset);
    assert r.Success?;
    var n := r.value.nextOffset;
    assert data[offset..n] == data[offset..];
  }
}

=== FILE: uleb128_js.dfy ===
/** `decodeULEB128` with JavaScript's number semantics left in: the
    accumulator is combined with `|=` and each group placed with `<<`, and
    both operators work on 32-bit two's-complement integers, with the shift
    count taken modulo 32.  The cursor and the error follow the same path
    as in Uleb128; only the value differs, from 2^31 upwards. */
module Uleb128Js {
  import opened Bytes
  import opened Wrappers
  import Uleb128
  import U64

  /** A decoded value as the source holds it: a signed 32-bit integer. */
  datatype JsDecoded = JsDecoded(value: int, nextOffset: nat)

  /** The unsigned reading of 32 bits. */
  function Num(x: bv32): (n: nat)
    ensures n < 0x1_0000_0000
  {
    x as int
  }

  /** The signed reading of 32 bits (ToInt32). */
  function AsInt32(x: bv32): (v: int)
    ensures -0x8000_0000 <= v < 0x8000_0000
    ensures v == Num(x) || v == Num(x) - 0x1_0000_0000
  {
    var n := Num(x);
    if n < 0x8000_0000 then n else n - 0x1_0000_0000
  }

  /** `(byte & 0x7F) << shift` on 32 bits. */
  function Group(b: byte, shift: nat): bv32 {
    Low7(b) << (shift % 32)
  }

  /** `byte & 0x7F` on 32 bits: the byte's low seven bits, as a word. */
  function Low7(b: byte): (g: bv32)
    ensures g < 0x80 && Num(g) == b % 128
  {
    Bits(b % 128)
  }

  /** The 32-bit word whose unsigned reading is `n`, built one bit at a
      time from the top. */
  function Bits(n: nat): (g: bv32)
    requires n < 128
    ensures Num(g) == n
  {
    if n == 0 then 0
    else
      var high := Bits(n / 2);
      var low: bv32 := if n % 2 == 1 then 1 else 0;
      ShiftIn(high, low);
      (high << 1) | low
  }

  /** Shifting in one bit doubles the reading and adds the bit. */
  lemma ShiftIn(x: bv32, c: bv32)
    requires Num(x) < 64 && Num(c) < 2
    ensures Num((x << 1) | c) == 2 * Num(x) + Num(c)
  {
    assert x < 64 && c < 2;
  }

  /** `value |= (byte & 0x7F) << shift` on 32 bits. */
  function Merge(acc: bv32, b: byte, shift: nat): bv32 {
    acc | Group(b, shift)
  }

  /** The loop of `decodeULEB128` with a 32-bit accumulator. */
  function DecodeFromJs(data: seq<byte>, pos: nat, shift: nat, acc: bv32): Result<JsDecoded, Uleb128.DecodeError>
    decreases |data| - pos
  {
    if pos >= |data| then Success(JsDecoded(AsInt32(acc), pos))
    else
      var b := data[pos];
      var acc' := Merge(acc, b, shift);
      if !Uleb128.Continues(b) then Success(JsDecoded(AsInt32(acc'), pos + 1))
      else if shift + 7 >= Uleb128.ShiftLimit then Failure(Uleb128.ValueTooLarge)
      else DecodeFromJs(data, pos + 1, shift + 7, acc')
  }

  /** `decodeULEB128(data, offset)` as written.  It stops, fails and moves
      the cursor exactly as the unbounded decoder does. */
  function DecodeJs(data: seq<byte>, offset: nat): (r: Result<JsDecoded, Uleb128.DecodeError>)
    ensures r.Failure? <==> Uleb128.Decode(data, offset).Failure?
    ensures r.Success? ==> r.value.nextOffset == Uleb128.Decode(data, offset).value.nextOffset
    ensures r.Success? && Uleb128.Decode(data, offset).value.value < 0x8000_0000 ==>
      r.value.value == Uleb128.Decode(data, offset).value.value
  {
    SameCursor(data, offset, 0, 0, 0);
    SameValue(data, offset, 0, 0, 0);
    DecodeFromJs(data, offset, 0, 0)
  }

  /** Both loops stop, fail and advance on the same bytes: the value never
      steers the control flow. */
  lemma {:induction false} SameCursor(data: seq<byte>, pos: nat, shift: nat, accJs: bv32, acc: nat)
    ensures var j := DecodeFromJs(data, pos, shift, accJs);
      var u := Uleb128.DecodeFrom(data, pos, shift, acc);
      && (j.Failure? <==> u.Failure?)
      && (j.Success? ==> j.value.nextOffset == u.value.nextOffset)
    decreases |data| - pos
  {
    hide Merge, AsInt32, Pow2;
    if pos < |data| {
      var b := data[pos];
      if Uleb128.Continues(b) && shift + 7 < Uleb128.ShiftLimit {
        SameCursor(data, pos + 1, shift + 7, Merge(accJs, b, shift), acc + (b % 128) * Pow2(shift));
      }
    }
  }

  /** Below 2^31 the 32-bit loop computes the unbounded value: every group
      lands on bits of its own, below the sign bit. */
  lemma {:induction false} SameValue(data: seq<byte>, pos: nat, k: nat, accJs: bv32, acc: nat)
    requires k < Uleb128.MaxEncodedLength
    requires Num(accJs) == acc && acc < Pow2(7 * k)
    ensures var u := Uleb128.DecodeFrom(data, pos, 7 * k, acc);
      u.Success? && u.value.value < 0x8000_0000 ==>
        DecodeFromJs(data, pos, 7 * k, accJs) == Success(JsDecoded(u.value.value, u.value.nextOffset))
    decreases |data| - pos
  {
    var u := Uleb128.DecodeFrom(data, pos, 7 * k, acc);
    if pos < |data| && u.Success? && u.value.value < 0x8000_0000 {
      hide *;
      if Uleb128.Continues(data[pos]) {
        var acc' := NextGroup(data, pos, k, accJs, acc);
        SameValue(data, pos + 1, k + 1, Merge(accJs, data[pos], 7 * k), acc');
      } else {
        LastGroup(data, pos, k, accJs, acc);
      }
    }
  }

  /** A final group: both loops stop after it with the same number. */
  lemma LastGroup(data: seq<byte>, pos: nat, k: nat, accJs: bv32, acc: nat)
    requires k < Uleb128.MaxEncodedLength && pos < |data| && !Uleb128.Continues(data[pos])
    requires Num(accJs) == acc && acc < Pow2(7 * k)
    requires var u := Uleb128.DecodeFrom(data, pos, 7 * k, acc); u.Success? && u.value.value < 0x8000_0000
    ensures var u := Uleb128.DecodeFrom(data, pos, 7 * k, acc);
      DecodeFromJs(data, pos, 7 * k, accJs) == Success(JsDecoded(u.value.value, u.value.nextOffset))
  {
    hide Merge, AsInt32, Pow2, Num;
    var b := data[pos];
    var acc' := acc + (b % 128) * Pow2(7 * k);
    assert Uleb128.DecodeFrom(data, pos, 7 * k, acc) == Success(Uleb128.Decoded(acc', pos + 1));
    StepAdds(accJs, b, k, acc);
  }

  /** A continuing group: both loops go on to the next byte, with
      accumulators that still agree.  Returns the unbounded one. */
  lemma NextGroup(data: seq<byte>, pos: nat, k: nat, accJs: bv32, acc: nat) returns (acc': nat)
    requires k < Uleb128.MaxEncodedLength && pos < |data| && Uleb128.Continues(data[pos])
    requires Num(accJs) == acc && acc < Pow2(7 * k)
    requires var u := Uleb128.DecodeFrom(data, pos, 7 * k, acc); u.Success? && u.value.value < 0x8000_0000
    ensures k + 1 < Uleb128.MaxEncodedLength
    ensures Num(Merge(accJs, data[pos], 7 * k)) == acc' && acc' < Pow2(7 * (k + 1))
    ensures Uleb128.DecodeFrom(data, pos, 7 * k, acc) == Uleb128.DecodeFrom(data, pos + 1, 7 * (k + 1), acc')
    ensures DecodeFromJs(data, pos, 7 * k, accJs) ==
      DecodeFromJs(data, pos + 1, 7 * (k + 1), Merge(accJs, data[pos], 7 * k))
  {
    hide *;
    acc' := acc + (data[pos] % 128) * Pow2(7 * k);
    NextUnbounded(data, pos, k, acc);
    NextJs(data, pos, k, accJs);
    StepAdds(accJs, data[pos], k, acc);
  }

  /** The unbounded loop's side of NextGroup. */
  lemma NextUnbounded(data: seq<byte>, pos: nat, k: nat, acc: nat)
    requires k < Uleb128.MaxEncodedLength && pos < |data| && Uleb128.Continues(data[pos])
    requires Uleb128.DecodeFrom(data, pos, 7 * k, acc).Success?
    ensures k + 1 < Uleb128.MaxEncodedLength
    ensures var acc' := acc + (data[pos] % 128) * Pow2(7 * k);
      && Uleb128.DecodeFrom(data, pos, 7 * k, acc) == Uleb128.DecodeFrom(data, pos + 1, 7 * (k + 1), acc')
      && acc' <= Uleb128.DecodeFrom(data, pos, 7 * k, acc).value.value
  {
    hide Pow2;
    var acc' := acc + (data[pos] % 128) * Pow2(7 * k);
    assert 7 * k + 7 < Uleb128.ShiftLimit;
    assert 7 * (k + 1) == 7 * k + 7;
    Uleb128.DecodeFromShape(data, pos + 1, k + 1, acc');
  }

  /** The 32-bit loop's side of NextGroup. */
  lemma NextJs(data: seq<byte>, pos: nat, k: nat, accJs: bv32)
    requires k + 1 < Uleb128.MaxEncodedLength && pos < |data| && Uleb128.Continues(data[pos])
    ensures DecodeFromJs(data, pos, 7 * k, accJs) ==
      DecodeFromJs(data, pos + 1, 7 * (k + 1), Merge(accJs, data[pos], 7 * k))
  {
    hide Merge, AsInt32, Num;
    assert 7 * (k + 1) == 7 * k + 7;
  }

  /** One step of both loops: the accumulators still agree, and the
      unbounded one stays below the next group's weight. */
  lemma StepAdds(accJs: bv32, b: byte, k: nat, acc: nat)
    requires k < Uleb128.MaxEncodedLength
    requires Num(accJs) == acc && acc < Pow2(7 * k)
    requires acc + (b % 128) * Pow2(7 * k) < 0x8000_0000
    ensures Num(Merge(accJs, b, 7 * k)) == acc + (b % 128) * Pow2(7 * k)
    ensures acc + (b % 128) * Pow2(7 * k) < Pow2(7 * (k + 1))
  {
    hide *;
    MergeAdds(accJs, b, k);
    Pow2Seven(k);
    GroupBelow(b % 128, Pow2(7 * k));
  }

  /** A seven-bit group weighs less than 128 of its unit. */
  lemma GroupBelow(g: nat, w: nat)
    requires g < 128
    ensures g * w <= 127 * w
  {
  }

  /** One group OR-ed into the accumulator adds its weight, while the sum
      stays below the sign bit and the accumulator below the group. */
  lemma MergeAdds(acc: bv32, b: byte, k: nat)
    requires k < Uleb128.MaxEncodedLength
    requires Num(acc) < Pow2(7 * k)
    requires Num(acc) + (b % 128) * Pow2(7 * k) < 0x8000_0000
    ensures Num(Merge(acc, b, 7 * k)) == Num(acc) + (b % 128) * Pow2(7 * k)
  {
    hide *;
    Pow2Groups();
    if k == 0 {
      MergeAt0(acc, b);
      assert 7 * k == 0;
    } else if k == 1 {
      MergeAt7(acc, b);
      assert 7 * k == 7;
    } else if k == 2 {
      MergeAt14(acc, b);
      assert 7 * k == 14;
    } else if k == 3 {
      MergeAt21(acc, b);
      assert 7 * k == 21;
    } else if k == 4 {
      FactorBelow(b % 128, Pow2(28), 8);
      MergeAt28(acc, b);
      assert 7 * k == 28;
    } else {
      Pow2Monotone(35, 7 * k);
      FactorBelow(b % 128, Pow2(7 * k), 1);
      MergeZero(acc, b, 7 * k);
    }
  }

  /** A product below `n` copies of a positive weight has a factor below `n`. */
  lemma FactorBelow(g: nat, w: nat, n: nat)
    requires w >= 1 && g * w < n * w
    ensures g < n
  {
  }

  /** The weights of the first six groups. */
  lemma Pow2Groups()
    ensures Pow2(0) == 1 && Pow2(7) == 0x80 && Pow2(14) == 0x4000
    ensures Pow2(21) == 0x20_0000 && Pow2(28) == 0x1000_0000 && Pow2(35) == 0x8_0000_0000
  {
    Pow2Seven(0);
    Pow2Seven(1);
    Pow2Seven(2);
    Pow2Seven(3);
    Pow2Seven(4);
  }

  // The five group positions below the sign bit: the 32-bit fact, then
  // the same fact read for the byte's group.

  lemma MergeAt0(acc: bv32, b: byte)
    requires Num(acc) < 1
    ensures Num(Merge(acc, b, 0)) == Num(acc) + (b % 128)
  {
    hide *;
    MergeShift0(acc, b);
    OrAt0(acc, Low7(b));
  }

  lemma MergeShift0(acc: bv32, b: byte)
    ensures Merge(acc, b, 0) == acc | (Low7(b) << 0)
  {
    hide Low7;
    assert Group(b, 0) == Low7(b) << 0;
  }

  lemma OrAt0(acc: bv32, g: bv32)
    requires Num(acc) < 1 && Num(g) < 0x80
    ensures Num(acc | (g << 0)) == Num(acc) + Num(g)
  {
    assert acc < 1 && g < 0x80;
  }

  lemma MergeAt7(acc: bv32, b: byte)
    requires Num(acc) < 0x80
    ensures Num(Merge(acc, b, 7)) == Num(acc) + (b % 128) * 0x80
  {
    hide *;
    MergeShift7(acc, b);
    OrAt7(acc, Low7(b));
  }

  lemma MergeShift7(acc: bv32, b: byte)
    ensures Merge(acc, b, 7) == acc | (Low7(b) << 7)
  {
    hide Low7;
    assert Group(b, 7) == Low7(b) << 7;
  }

  lemma OrAt7(acc: bv32, g: bv32)
    requires Num(acc) < 0x80 && Num(g) < 0x80
    ensures Num(acc | (g << 7)) == Num(acc) + Num(g) * 0x80
  {
    assert acc < 0x80 && g < 0x80;
  }

  lemma MergeAt14(acc: bv32, b: byte)
    requires Num(acc) < 0x4000
    ensures Num(Merge(acc, b, 14)) == Num(acc) + (b % 128) * 0x4000
  {
    hide *;
    MergeShift14(acc, b);
    OrAt14(acc, Low7(b));
  }

  lemma MergeShift14(acc: bv32, b: byte)
    ensures Merge(acc, b, 14) == acc | (Low7(b) << 14)
  {
    hide Low7;
    assert Group(b, 14) == Low7(b) << 14;
  }

  lemma OrAt14(acc: bv32, g: bv32)
    requires Num(acc) < 0x4000 && Num(g) < 0x80
    ensures Num(acc | (g << 14)) == Num(acc) + Num(g) * 0x4000
  {
    assert acc < 0x4000 && g < 0x80;
  }

  lemma MergeAt21(acc: bv32, b: byte)
    requires Num(acc) < 0x20_0000
    ensures Num(Merge(acc, b, 21)) == Num(acc) + (b % 128) * 0x20_0000
  {
    hide *;
    MergeShift21(acc, b);
    OrAt21(acc, Low7(b));
  }

  lemma MergeShift21(acc: bv32, b: byte)
    ensures Merge(acc, b, 21) == acc | (Low7(b) << 21)
  {
    hide Low7;
    assert Group(b, 21) == Low7(b) << 21;
  }

  lemma OrAt21(acc: bv32, g: bv32)
    requires Num(acc) < 0x20_0000 && Num(g) < 0x80
    ensures Num(acc | (g << 21)) == Num(acc) + Num(g) * 0x20_0000
  {
    assert acc < 0x20_0000 && g < 0x80;
  }

  lemma MergeAt28(acc: bv32, b: byte)
    requires Num(acc) < 0x1000_0000 && b % 128 < 8
    ensures Num(Merge(acc, b, 28)) == Num(acc) + (b % 128) * 0x1000_0000
  {
    hide *;
    MergeShift28(acc, b);
    OrAt28(acc, Low7(b));
  }

  lemma MergeShift28(acc: bv32, b: byte)
    ensures Merge(acc, b, 28) == acc | (Low7(b) << 28)
  {
    hide Low7;
    assert Group(b, 28) == Low7(b) << 28;
  }

  lemma OrAt28(acc: bv32, g: bv32)
    requires Num(acc) < 0x1000_0000 && Num(g) < 8
    ensures Num(acc | (g << 28)) == Num(acc) + Num(g) * 0x1000_0000
  {
    assert acc < 0x1000_0000 && g < 8;
  }

  lemma MergeZero(acc: bv32, b: byte, shift: nat)
    requires b % 128 == 0
    ensures Merge(acc, b, shift) == acc
  {
    assert Low7(b) == 0;
  }

  /** Group 8 at shift 28 is exactly the sign bit. */
  lemma TopBit(g: bv32)
    requires Num(g) == 8
    ensures Num(0 | (g << 28)) == 0x8000_0000
  {
    assert g == 8;
  }

  /** Every value below 2^31 survives the round trip as written: the
      decoder's 32-bit arithmetic only bites from 2^31 up. */
  lemma RoundTripBelowSignBit(v: nat)
    requires v < 0x8000_0000
    ensures DecodeJs(Uleb128.Encode(v), 0) == Success(JsDecoded(v, |Uleb128.Encode(v)|))
  {
    var e := Uleb128.Encode(v);
    U64.LimitIsPow2();
    Pow2Monotone(31, 64);
    Pow2Groups();
    Pow2Add(28, 3);
    assert Pow2(31) == 0x8000_0000 by {
      assert Pow2(3) == 8;
    }
    assert e[0..|e|] == e;
    Uleb128.DecodeEncode(e, 0, v);
  }

  /** The five-byte encoding of 2^31, the first value whose top group lands
      on the sign bit. */
  const TwoTo31Encoded: seq<byte> := [0x80, 0x80, 0x80, 0x80, 0x08]

  /** The varint of 2^31, the canonical encoding the ledger writes, decodes
      as -2^31 under 32-bit operators, where the unbounded decoder gives
      2^31. */
  lemma SignBitLost()
    ensures Uleb128.Encode(0x8000_0000) == TwoTo31Encoded
    ensures DecodeJs(TwoTo31Encoded, 0) == Success(JsDecoded(-0x8000_0000, 5))
    ensures Uleb128.Decode(TwoTo31Encoded, 0) == Success(Uleb128.Decoded(0x8000_0000, 5))
  {
    var e := TwoTo31Encoded;
    assert Uleb128.Encode(0x8000_0000) == e;
    SignBitLostJs();
    U64.LimitIsPow2();
    Uleb128.DecodeEncode(e, 0, 0x8000_0000);
  }

  /** The 32-bit half of SignBitLost: four empty groups, then 8 << 28. */
  lemma SignBitLostJs()
    ensures DecodeJs(TwoTo31Encoded, 0) == Success(JsDecoded(-0x8000_0000, 5))
  {
    hide Merge, AsInt32, Low7, Bits;
    var e := TwoTo31Encoded;
    var top := Merge(0, 0x08, 28);
    MergeShift28(0, 0x08);
    TopBit(Low7(0x08));
    MergeZero(0, 0x80, 0);
    MergeZero(0, 0x80, 7);
    MergeZero(0, 0x80, 14);
    MergeZero(0, 0x80, 21);
    assert DecodeFromJs(e, 4, 28, 0) == Success(JsDecoded(AsInt32(top), 5));
    assert DecodeFromJs(e, 0, 0, 0) == DecodeFromJs(e, 4, 28, 0);
  }
}

=== FILE: wrappers.dfy ===
/** Failure-carrying results for the decoders: the JavaScript code signals
    failure by throwing or by returning `null`; the model names each case. */
module Wrappers {

  datatype Option<+T> = None | Some(value: T)

  datatype Result<+T, +E> = Success(value: T) | Failure(error: E)
}

=== FILE: zodiac.dfy ===
/** The western zodiac season of a calendar date, as
    `getCurrentZodiacSeason` picks it from the month and day of the local
    date, and the date ranges the `ZODIAC_SIGNS` table prints. */
module Zodiac {

  datatype Sign =
    | Aries | Taurus | Gemini | Cancer | Leo | Virgo
    | Libra | Scorpio | Sagittarius | Capricorn | Aquarius | Pisces

  /** The key each sign is known by in the application. */
  function Name(s: Sign): string {
    match s
    case Aries => "aries"
    case Taurus => "taurus"
    case Gemini => "gemini"
    case Cancer => "cancer"
    case Leo => "leo"
    case Virgo => "virgo"
    case Libra => "libra"
    case Scorpio => "scorpio"
    case Sagittarius => "sagittarius"
    case Capricorn => "capricorn"
    case Aquarius => "aquarius"
    case Pisces => "pisces"
  }

  /** The keys tell the signs apart: `getCurrentZodiacSeason` returning a
      key loses nothing against returning the sign. */
  lemma NamesDistinct(s: Sign, t: Sign)
    ensures Name(s) == Name(t) <==> s == t
  {
  }

  /** A month (1 = January) and a day of that month. */
  datatype MonthDay = MonthDay(month: int, day: int)

  /** `getCurrentZodiacSeason()` on the date (month, day): the first sign
      whose range holds the date, tried from Aries on; Pisces when none
      does. */
  function ZodiacSeason(month: int, day: int): (s: Sign)
    ensures 1 <= month <= 12 ==> InSeason(s, month, day)
  {
    if (month == 3 && day >= 21) || (month == 4 && day <= 19) then Aries
    else if (month == 4 && day >= 20) || (month == 5 && day <= 20) then Taurus
    else if (month == 5 && day >= 21) || (month == 6 && day <= 20) then Gemini
    else if (month == 6 && day >= 21) || (month == 7 && day <= 22) then Cancer
    else if (month == 7 && day >= 23) || (month == 8 && day <= 22) then Leo
    else if (month == 8 && day >= 23) || (month == 9 && day <= 22) then Virgo
    else if (month == 9 && day >= 23) || (month == 10 && day <= 22) then Libra
    else if (month == 10 && day >= 23) || (month == 11 && day <= 21) then Scorpio
    else if (month == 11 && day >= 22) || (month == 12 && day <= 21) then Sagittarius
    else if (month == 12 && day >= 22) || (month == 1 && day <= 19) then Capricorn
    else if (month == 1 && day >= 20) || (month == 2 && day <= 18) then Aquarius
    else Pisces
  }

  /** First day of each sign's range in the `ZODIAC_SIGNS` table. */
  function Start(s: Sign): MonthDay {
    match s
    case Aries => MonthDay(3, 21)
    case Taurus => MonthDay(4, 20)
    case Gemini => MonthDay(5, 21)
    case Cancer => MonthDay(6, 21)
    case Leo => MonthDay(7, 23)
    case Virgo => MonthDay(8, 23)
    case Libra => MonthDay(9, 23)
    case Scorpio => MonthDay(10, 23)
    case Sagittarius => MonthDay(11, 22)
    case Capricorn => MonthDay(12, 22)
    case Aquarius => MonthDay(1, 20)
    case Pisces => MonthDay(2, 19)
  }

  /** Last day of each sign's range in the `ZODIAC_SIGNS` table. */
  function End(s: Sign): MonthDay {
    match s
    case Aries => MonthDay(4, 19)
    case Taurus => MonthDay(5, 20)
    case Gemini => MonthDay(6, 20)
    case Cancer => MonthDay(7, 22)
    case Leo => MonthDay(8, 22)
    case Virgo => MonthDay(9, 22)
    case Libra => MonthDay(10, 22)
    case Scorpio => MonthDay(11, 21)
    case Sagittarius => MonthDay(12, 21)
    case Capricorn => MonthDay(1, 19)
    case Aquarius => MonthDay(2, 18)
    case Pisces => MonthDay(3, 20)
  }

  /** The date lies in the sign's printed range, which runs from its start
      day to the end of that month and on into the next month up to its end
      day. */
  predicate InSeason(s: Sign, month: int, day: int) {
    (month == Start(s).month && day >= Start(s).day) || (month == End(s).month && day <= End(s).day)
  }

  /** Each range ends in the month after the one it starts in. */
  lemma RangesSpanTwoMonths(s: Sign)
    ensures End(s).month == Start(s).month % 12 + 1
    ensures End(s).day == Start(Next(s)).day - 1
  {
  }

  /** The sign whose range follows. */
  function Next(s: Sign): Sign {
    match s
    case Aries => Taurus
    case Taurus => Gemini
    case Gemini => Cancer
    case Cancer => Leo
    case Leo => Virgo
    case Virgo => Libra
    case Libra => Scorpio
    case Scorpio => Sagittarius
    case Sagittarius => Capricorn
    case Capricorn => Aquarius
    case Aquarius => Pisces
    case Pisces => Aries
  }

  /** The season function and the table agree: for any month, the season
      picked is a sign whose printed range holds the date, and it is the
      only such sign. */
  lemma SeasonMatchesTable(s: Sign, month: int, day: int)
    requires 1 <= month <= 12
    ensures ZodiacSeason(month, day) == s <==> InSeason(s, month, day)
  {
  }

  /** Every sign's first day, as printed in the table, falls in that
      sign's season. */
  lemma StartDayIsInSeason(s: Sign)
    ensures ZodiacSeason(Start(s).month, Start(s).day) == s
    ensures ZodiacSeason(End(s).month, End(s).day) == s
  {
  }
}
